=== FILE: README.md ===
# SMTP-SERVICE account core, modelled in Dafny

SMTP-SERVICE is an account service. A person signs up with a name, date of birth, e-mail address and password. They confirm the address with a six-digit code sent by mail, and then log in to get a seven-day bearer token. Someone who has forgotten their password asks for a reset link by mail. The link carries a random token that is valid for an hour. The server stores only the token's SHA-256 digest.

This project models the core of that service:

- the account record (`backend/models/user.js`);
- the eleven request handlers (`backend/controllers/Auth.js`);
- the bearer-token gate (`backend/middleware/auth.js`);
- the client-side rules of three pages: sign-up, one-time-code entry and password reset (`frontend/src/AuthPages/Signup.jsx`, `Otp.jsx`, `ResetPassword.jsx`).

Each handler is a pure function. It takes the account store and the request fields, and the clock reading `now` in milliseconds where the source reads the clock. A handler that writes returns a `Step`: the reply (`Ok(Success)` or `Err(Failure)`, with the source's status code in `StatusCode`) and the new store. The read-only handlers `Login`, `CheckAuth`, `ValidateResetToken` and `CheckVerificationStatus` return only their reply. Each page rule is a pure function from the page's state to what the page does next.

Modules:

| file | module | models |
|---|---|---|
| `text.dfy` | `Text` | JavaScript string helpers the core relies on: `trim`, `replace(/\D/g, '')`, `Number#toString`, `split`/`join` |
| `crypto.dfy` | `Crypto` | bcrypt hash and compare, SHA-256 digest of reset tokens, JWT claims |
| `accounts.dfy` | `Accounts` | the account record, the store, `findOne`/`findById`, the response projections |
| `auth_controller.dfy` | `AuthController` | the eleven handlers, their failures and status codes, the record lifecycle invariant |
| `auth_invariant.dfy` | `AuthInvariant` | every state-changing handler preserves the invariant |
| `auth_gate.dfy` | `AuthGate` | `authenticateToken`, `requireVerified`, and the two routes behind the gate |
| `password_strength.dfy` | `PasswordStrength` | the strength meter shared by the sign-up and reset pages |
| `signup_page.dfy` | `SignupPage` | `validateForm` and `handleSubmit` of the sign-up page |
| `otp_page.dfy` | `OtpPage` | code boxes, paste, submit guard, resend countdown, `formatTime` |
| `reset_password_page.dfy` | `ResetPasswordPage` | link check on load, submit checks, button enablement |
| `flows.dfy` | `Flows` | journeys that cross handlers or go from a page to a handler |

How the model represents the system:

- **Store.** The store is a sequence of accounts. An account's id is its position. The source never deletes a record.
- **`findOne`.** This is the first matching record in insertion order.
- **Inputs instead of collaborators.** The generated verification code is a number in [100000, 999999]. The raw reset token is 64 lower-case hex characters. The bcrypt salt is a number. Whether the reset mail was delivered is a boolean.
- **Crypto.**
  - bcrypt is a salted hash that matches exactly the password it was made from.
  - SHA-256 is an injective digest.
  - Token signing yields the claims `{userId, email, iat, exp}`.
  - Token verification is a function parameter of the gate.
- **Record invariant.** The store invariant `Inv` says:
  - addresses are unique (the `unique: true` index);
  - every required field is non-empty;
  - each record's verification and reset fields pair up as the handlers write them.

  Every state-changing handler is proved to preserve `Inv`.

Properties worth noting:

- **Anti-enumeration.** A login with an unknown address and a login with a wrong password get the same reply. A forgot-password request for an unknown address gets an acknowledgement and changes nothing.
- **Permanent reset lockout.** `forgotPassword` refuses once `passwordResetAttempts` reaches 5. Only a completed `resetPassword` sets it back to 0. A link whose delivery failed still counts as an attempt. So an account that has had five links issued without completing a reset is refused by the reset flow from then on. Changing the password while signed in does not lift this (`Flows.FifthAttemptLocksOut`, `Flows.ChangePasswordKeepsLockout`). The refusal message says "try again later", but nothing in the core lifts the lockout.
- **Weak-password warning.** The reset page warns about a weak password only when the meter reads "Very Weak". A password the meter calls "Weak" (score 50) is sent without a warning (`ResetPasswordPage.WeakWarningMatchesLabel`).
- **`requireVerified`** lets every request through, verified or not.

## Model

| member | source | states |
|---|---|---|
| Text.Trim | backend/controllers/Auth.js:10 | `trim()` returns a slice of the input that neither starts nor ends with whitespace, and everything cut off on either side is whitespace |
| Text.TrimIdempotent | backend/controllers/Auth.js:10 | Trimming a trimmed address changes nothing, so the stored e-mail is its own trim |
| Text.TrimEmptyIffAllSpace | frontend/src/AuthPages/Signup.jsx:58-62 | `!s.trim()` holds exactly when every character of `s` is whitespace |
| Text.KeepDigits | frontend/src/AuthPages/Otp.jsx:94 | Stripping non-digits leaves only digits and never lengthens the text |
| Text.KeepDigitsOfChar | frontend/src/AuthPages/Otp.jsx:94 | A single character survives the stripping exactly when it is a digit |
| Text.KeepDigitsAppend | frontend/src/AuthPages/Otp.jsx:94 | The digits of a concatenation are the digits of each part, in order; with the single-character case this fixes the result on every string |
| Text.KeepDigitsIgnoresTrim | frontend/src/AuthPages/Otp.jsx:93-94 | Trimming the clipboard text before stripping non-digits keeps the same digits |
| Text.ParseDecimalOfDecimal | backend/controllers/Auth.js:26 | The decimal rendering of a number reads back as that number |
| Text.DecimalLength | backend/controllers/Auth.js:26 | A number with k digits renders as exactly k characters |
| Text.Split | backend/middleware/auth.js:8 | `split(' ')` pieces hold no separator and join back to the original header |
| Text.SplitJoin | backend/middleware/auth.js:8 | Splitting a joined list of separator-free pieces gives the pieces back |
| Crypto.HashPassword | backend/controllers/Auth.js:23 | A fresh hash accepts the password it was made from |
| Crypto.MatchesExactlyTheHashedPassword | backend/controllers/Auth.js:231 | `bcrypt.compare` accepts exactly the hashed password, whatever the salt |
| Crypto.FingerprintInjective | backend/controllers/Auth.js:399-402 | Two reset tokens have the same stored digest exactly when they are the same token |
| Crypto.SignToken | backend/controllers/Auth.js:249-253 | The token names the user and address, is issued in the current second, and expires seven days later |
| Accounts.NewAccount | backend/models/user.js:7-23 | A new record is unverified with zero reset attempts and no reset or request stamps, and carries the given fields and creation time |
| Accounts.FindFirst | backend/controllers/Auth.js:17 | `findOne` returns the first matching record, or nothing exactly when no record matches |
| Accounts.FindByEmail | backend/controllers/Auth.js:147 | The lookup by address returns a record with that address, or nothing exactly when none has it |
| Accounts.FindByEmailUnique | backend/models/user.js:10 | With the unique index, the lookup by address returns the one record that has it |
| Accounts.FindById | backend/controllers/Auth.js:594 | `findById` finds a record exactly when the id names one, and returns that record |
| Accounts.RedactHidesSecrets | backend/controllers/Auth.js:44-47 | The record sent back on registration and verification is the same whatever the password hash, code and code expiry are: none of them leaks |
| Accounts.ProfileHidesSecrets | backend/controllers/Auth.js:255-263 | The login profile is the same whatever the password hash, code and reset-link fields are: none of them leaks |
| AuthController.BodyEmail | backend/controllers/Auth.js:10-12 | The request's address counts as given exactly when it is not blank; it is then the trimmed, non-empty address |
| AuthController.CeilDiv | backend/controllers/Auth.js:171 | `Math.ceil(x / d)`: the least whole number of `d`-sized steps covering `x` |
| AuthController.CodeString | backend/controllers/Auth.js:26 | A generated code is stored as six digits without a leading zero and reads back as the number drawn |
| AuthController.StatusCode | backend/controllers/Auth.js:7-683 | Successes are 2xx, with 201 exactly for a registration; 404 exactly for an unknown address or user, 429 exactly for the two cooldowns and the attempt cap, 403 exactly for an unverified login or a rejected token, 401 exactly for the five authentication refusals, 500 only for an undelivered reset mail, and 400 for the rest |
| AuthController.Register | backend/controllers/Auth.js:7-62 | Missing fields and an address already on record are refused without change; registration succeeds exactly when all fields are given and no record has the trimmed address, and then one record built from the schema defaults (unverified, no request or reset stamps) is appended with the trimmed address, the hashed password, the code and its 15-minute expiry, and its redacted view is returned |
| AuthController.MarkVerified | backend/controllers/Auth.js:104-108 | Verifying sets the flag and stamp, clears the code and its expiry, and changes nothing else |
| AuthController.VerifyEmail | backend/controllers/Auth.js:64-133 | Succeeds exactly when some record has that address, that code and a live expiry, and marks that record verified; an expired match gives "expired"; no match at all gives "invalid code"; every refusal leaves the store unchanged |
| AuthController.ResendVerificationCode | backend/controllers/Auth.js:135-204 | Blank, unknown and verified addresses are refused; a request within a minute of the last gets the rounded-up wait; for an unverified account outside the cooldown it succeeds and writes a new code, expiry and request stamp |
| AuthController.Login | backend/controllers/Auth.js:207-282 | An unknown address and a wrong password get the same refusal; a correct password on an unverified account gets 403, and on a verified one exactly that succeeds; success returns a token issued in the current second and valid for seven days, and the profile of the record found |
| AuthController.CheckAuth | backend/controllers/Auth.js:285-329 | Without a decoded token, or for an id with no record, the reply is 401; otherwise it is that record's profile |
| AuthController.Logout | backend/controllers/Auth.js:332-339 | Logging out answers 200 and changes nothing on the server |
| AuthController.IssueResetToken | backend/controllers/Auth.js:404-408 | Issuing stores the token's digest with a one-hour expiry, adds one attempt and stamps the request; every other field except `updatedAt` is untouched |
| AuthController.RollBackResetToken | backend/controllers/Auth.js:422-428 | An undelivered link has its digest and expiry cleared and nothing else undone |
| AuthController.ForgotPassword | backend/controllers/Auth.js:341-443 | Unknown addresses are acknowledged without change; the refusals come in source order (unverified, 2-minute cooldown with the rounded-up wait, 5 attempts); past them a delivered link is sent exactly when the mail succeeds and rolled back exactly when it fails |
| AuthController.FindByResetToken | backend/controllers/Auth.js:458-467 | The lookup finds a record holding the token's digest with a live expiry, or nothing exactly when none does |
| AuthController.ValidateResetToken | backend/controllers/Auth.js:446-489 | A link is accepted exactly when some record holds its digest with a live expiry, and the reply names that record's address; any other given token gets "invalid or expired" |
| AuthController.ApplyReset | backend/controllers/Auth.js:530-538 | A reset installs the new password and clears the token, expiry, attempt count and request stamp |
| AuthController.ResetPassword | backend/controllers/Auth.js:492-564 | Missing fields and short passwords are refused before the token is looked up; past those checks a token no record holds live gets "invalid or expired"; success replaces exactly the record holding the live token |
| AuthController.ChangePassword | backend/controllers/Auth.js:567-648 | Each refusal is pinned to its condition, in source order (no user, missing fields, short new password, unknown id, wrong current password, unchanged password); success needs the current password to match and the new one to differ, and replaces only the password |
| AuthController.CheckVerificationStatus | backend/controllers/Auth.js:650-683 | Succeeds exactly when a record has the trimmed address and reports its flag, address and first name; 404 when there is none |
| AuthInvariant.UpdateKeepsInv | backend/models/user.js:7-23 | Replacing a record by a well-formed one with the same address keeps addresses unique and records well-formed |
| AuthInvariant.RegisterKeepsInv | backend/controllers/Auth.js:17-38 | Registration keeps addresses unique and the new record well-formed |
| AuthInvariant.VerifyEmailKeepsInv | backend/controllers/Auth.js:77-108 | Verification keeps the store invariant |
| AuthInvariant.ResendKeepsInv | backend/controllers/Auth.js:147-185 | Resending a code keeps the store invariant |
| AuthInvariant.ForgotPasswordKeepsInv | backend/controllers/Auth.js:353-434 | Issuing and rolling back reset links keeps the store invariant, including the cap of five attempts |
| AuthInvariant.ResetPasswordKeepsInv | backend/controllers/Auth.js:518-540 | A password reset keeps the store invariant |
| AuthInvariant.ChangePasswordKeepsInv | backend/controllers/Auth.js:594-627 | A password change keeps the store invariant |
| AuthGate.BearerToken | backend/middleware/auth.js:7-10 | The token taken from the header is non-empty and space-free; a header without a space yields none |
| AuthGate.BearerTokenOfHeader | backend/middleware/auth.js:8 | A header `<scheme> <token> ...` yields the token whatever the scheme word |
| AuthGate.EmptySecondWordGivesNoToken | backend/middleware/auth.js:7-15 | A header whose second word is empty yields no token, so the gate answers 401 |
| AuthGate.AuthenticateToken | backend/middleware/auth.js:5-35 | No token gives 401, a token the verifier rejects gives 403, and otherwise the decoded claims are passed on |
| AuthGate.GateStatus | backend/middleware/auth.js:10-23 | The gate answers 401 for a missing token and 403 for a rejected one |
| AuthGate.RequireVerified | backend/middleware/auth.js:38-42 | `requireVerified` passes every request on, including for unverified accounts |
| AuthGate.CheckAuthRoute | backend/routes/Auth.routes.js:29 | The gate's 401/403 refusals reach the client unchanged; an admitted token whose record is gone gets 401; otherwise the reply is that record's profile |
| AuthGate.LogoutRoute | backend/routes/Auth.routes.js:30 | Logout succeeds exactly when the gate admits the token, passes on the gate's refusal otherwise, and never changes the store |
| PasswordStrength.Strength | frontend/src/AuthPages/Signup.jsx:28-34 | The score is a multiple of 25 between 0 and 100 |
| PasswordStrength.StrengthCountsCriteria | frontend/src/AuthPages/ResetPassword.jsx:59-65 | The score is 25 points per criterion met: length 6, an upper-case letter, a digit, a symbol |
| PasswordStrength.StrengthMonotone | frontend/src/AuthPages/Signup.jsx:29-33 | Appending characters to a password never lowers its score |
| PasswordStrength.TextAndColorAgree | frontend/src/AuthPages/Signup.jsx:90-104 | Two scores share a label exactly when they share a bar colour |
| PasswordStrength.StrengthTextByCriteria | frontend/src/AuthPages/Signup.jsx:98-104 | The label names how many criteria are met: none, Very Weak, Weak, Good, Strong |
| SignupPage.MatchesEmailPatternMeaning | frontend/src/AuthPages/Signup.jsx:50 | The address pattern accepts exactly space-free text with one `@`, something before it, and a `.` with text on both sides after it |
| SignupPage.FieldError | frontend/src/AuthPages/Signup.jsx:57-85 | Each field's message is set exactly when its check fails, with the message for the first failed check |
| SignupPage.ValidateSignup | frontend/src/AuthPages/Signup.jsx:48-88 | The error map has an entry exactly for each field whose check fails |
| SignupPage.SubmitSignup | frontend/src/AuthPages/Signup.jsx:106-128 | The request goes out only with no field errors, carrying the trimmed address and no confirmation field |
| OtpPage.JoinSlotsLength | frontend/src/AuthPages/Otp.jsx:106-109 | The joined code has six characters exactly when all six boxes are filled, and holds only digits |
| OtpPage.TypeInSlot | frontend/src/AuthPages/Otp.jsx:64-76 | Typing anything that is not all digits leaves every box unchanged; otherwise only the box typed into changes; boxes stay one digit at most |
| OtpPage.TypingFillsBoxes | frontend/src/AuthPages/Otp.jsx:64-76 | Typing a six-digit code one box at a time, one change event per box, leaves the boxes holding exactly its digits |
| OtpPage.JoinChars | frontend/src/AuthPages/Otp.jsx:96-97 | Spreading a code over the boxes and joining them gives the code back |
| OtpPage.Paste | frontend/src/AuthPages/Otp.jsx:91-101 | Pasted text with six or more digits fills the boxes with its first six digits; with fewer, nothing changes |
| OtpPage.SubmitOtp | frontend/src/AuthPages/Otp.jsx:103-127 | Unfilled boxes and an unknown address are refused; otherwise the six typed digits are posted with the address |
| OtpPage.JoinFilledSlots | frontend/src/AuthPages/Otp.jsx:106 | With every box filled, character k of the joined code is box k |
| OtpPage.SubmitEnabled | frontend/src/AuthPages/Otp.jsx:291 | The submit button is enabled exactly when no request is out and all six boxes are filled |
| OtpPage.Tick | frontend/src/AuthPages/Otp.jsx:40-51 | Each tick lowers a running countdown by one, and at zero enables the resend link |
| OtpPage.CountdownEnablesResend | frontend/src/AuthPages/Otp.jsx:40-51 | From t seconds left, the resend link stays disabled for t ticks and is enabled by the next |
| OtpPage.StaysEnabled | frontend/src/AuthPages/Otp.jsx:47-49 | Once enabled, the resend link stays enabled while the countdown runs |
| OtpPage.Resend | frontend/src/AuthPages/Otp.jsx:159-189 | An accepted resend restarts the 60-second countdown and empties the boxes; otherwise the page is unchanged |
| OtpPage.ResendRestartsCountdown | frontend/src/AuthPages/Otp.jsx:176-178 | After an accepted resend the link stays disabled for 60 ticks and is enabled by the next |
| OtpPage.TwoDigits | frontend/src/AuthPages/Otp.jsx:194-195 | The seconds field is two digits that read back as the seconds |
| OtpPage.FormatTime | frontend/src/AuthPages/Otp.jsx:192-196 | The rendering is unpadded minutes, a colon and two digits; it starts with 0 only below one minute |
| OtpPage.FormatTimeRoundTrip | frontend/src/AuthPages/Otp.jsx:192-196 | The `m:ss` rendering loses nothing: reading it back gives the seconds |
| ResetPasswordPage.CheckLink | frontend/src/AuthPages/ResetPassword.jsx:21-55 | With no token the form is never shown; with one it is shown exactly when the server accepts it, with the address the server named |
| ResetPasswordPage.SubmitReset | frontend/src/AuthPages/ResetPassword.jsx:78-106 | Length is checked before the match; a sent request carries the token and the confirmed password, warning exactly when only the length criterion is met |
| ResetPasswordPage.WeakWarningMatchesLabel | frontend/src/AuthPages/ResetPassword.jsx:92-95 | The weak-password warning fires exactly when the meter reads "Very Weak" |
| ResetPasswordPage.SubmitButtonEnabled | frontend/src/AuthPages/ResetPassword.jsx:325 | The button is enabled exactly when no request is out and both fields are filled; a disabled button never hides a request that would have been sent |
| ResetPasswordPage.SendableFormEnablesButton | frontend/src/AuthPages/ResetPassword.jsx:323-325 | Every form the submit handler would send has its button enabled whenever no request is out |
| Flows.SignupPayloadRegisters | frontend/src/AuthPages/Signup.jsx:119-128 | What the sign-up page sends always passes the required-field check, and registers when the address is new |
| Flows.RegisteredCodeVerifiesUntilExpiry | backend/controllers/Auth.js:26-36 | The mailed code verifies the new account for 15 minutes and is refused as expired afterwards |
| Flows.TypedCodeIsPosted | frontend/src/AuthPages/Otp.jsx:103-127 | Typing the mailed code digit by digit into the six empty boxes makes the page post exactly that code |
| Flows.PastedCodeIsPosted | frontend/src/AuthPages/Otp.jsx:91-101 | Pasting text whose digits are the mailed code makes the page post that code |
| Flows.CodeIsSingleUse | backend/controllers/Auth.js:104-106 | After a code verifies an account, the same request is refused as an invalid code |
| Flows.StatusFollowsVerification | backend/controllers/Auth.js:650-683 | The status check reads unverified right after registration and verified once the mailed code is accepted |
| Flows.LoginHidesWhichCheckFailed | backend/controllers/Auth.js:223-238 | Unknown address and wrong password give the same reply and status |
| Flows.LoginTokenOpensCheckAuth | backend/controllers/Auth.js:285-310 | A token issued by login and presented back opens `GET /check-auth` on the profile the login returned |
| Flows.SignUpVerifyLogIn | backend/controllers/Auth.js:7-282 | Register, verify in time, log in with the chosen password: the login succeeds for the new account |
| Flows.IssuedLinkIsFound | backend/controllers/Auth.js:396-410 | A delivered link opened within the hour leads to the account it was sent for and no other |
| Flows.ResetCompletes | backend/controllers/Auth.js:492-540 | After a reset the new password logs in, a different old one is refused, and the link is dead |
| Flows.ResetJourney | backend/controllers/Auth.js:341-564 | Forgot, open, reset, log in: the whole journey succeeds and cannot be replayed |
| Flows.OtherTokensRefused | backend/controllers/Auth.js:458-474 | A token no record held is refused, whatever link was just issued |
| Flows.FailedDeliveryLeavesNoLink | backend/controllers/Auth.js:412-434 | An undelivered link cannot be used, yet still counts as an attempt and starts the cooldown |
| Flows.FifthAttemptLocksOut | backend/controllers/Auth.js:387-393 | After the fifth link is issued, the next request after the cooldown is refused |
| Flows.ChangePasswordKeepsLockout | backend/controllers/Auth.js:622-627 | A password change while signed in does not lift the reset lockout |
| Flows.SamePasswordRefused | backend/controllers/Auth.js:613-620 | Changing to the current password is refused and changes nothing |
| Flows.ResendWaitBounds | backend/controllers/Auth.js:164-176 | The reported resend wait is between 1 and 60 seconds when the last request is not in the future |
| Flows.ResetPageSendsAcceptableRequest | frontend/src/AuthPages/ResetPassword.jsx:80-106 | What the reset page sends always passes the handler's field and length checks, so only the token decides |
| Flows.ResetPageShowsFormForLiveLink | frontend/src/AuthPages/ResetPassword.jsx:21-55 | The reset page shows its form exactly for a link the server accepts, with that account's address |

## Left out

- Server errors. The 500 replies of every handler's catch-all (store failures, a `DOB` that does not cast to a date, bcrypt or JWT library errors) are not modelled. The model's store never fails.
- Concurrency. The cooldown and attempt-cap checks are read-then-write in the source. Two simultaneous requests could both pass them. Each handler is modelled as one atomic step.
- Separate clock readings. The source reads the clock several times within one handler. The model uses one reading, `now`, per handler.
- String length. JavaScript `length` counts UTF-16 code units. The model counts characters. The two differ only for characters outside the Basic Multilingual Plane.
- bcrypt only compares the first 72 bytes of a password. The model compares whole passwords.
- Calendar arithmetic. The date-of-birth checks of the sign-up page (at least 13, at most 100 years old) use the browser calendar. They are taken as an input verdict, `SignupPage.DobCheck`.
- Mail. Templates, transport and preview URLs are not modelled. The verification, welcome and password-changed mails cannot fail a request: `backend/middleware/Email.js` swallows the first two, and the controller catches the third. Only the reset mail's outcome matters, and it is an input of `ForgotPassword`.
- JWT internals. Signing keys and signature checking are not modelled. The gate receives token verification as a function.
- Routing. `changePassword` and `checkVerificationStatus` are not wired to any route in `backend/routes/Auth.routes.js`. They are modelled as handlers all the same.
- Unused model helpers. `generateAuthToken`, `comparePassword` and the Joi `validate` function in `backend/models/user.js` are never called by the core.
- Other pages. The login and forgot-password pages, routing guards and local storage are not modelled. Nor are toasts, focus movement between boxes, backspace handling, the three-second redirect, and the show-password toggles.
- Countdown timing. The resend countdown's `setInterval` is modelled as discrete ticks (`OtpPage.Tick`), not as wall-clock time.
- Attempt reset. An account's reset attempts are set back to zero only by a completed `resetPassword`; `changePassword` leaves them as they are, although the attempt-cap refusal tells the user to try again later. The model follows the handlers.
- OtpPage.TypeInSlot: keeps boxes to one digit only under `|value| <= 1`, because the source relies on the browser's `maxLength="1"` on each box rather than on `handleChange` for that.
- Request field types. Request fields are modelled as optional strings. A JSON body can also carry numbers, booleans or objects. For example, a numeric `verificationCode` is cast to a string by the schema and still matches in the `verifyEmail` query. The model cannot express such requests.

=== FILE: accounts.dfy ===
/** The account record of `backend/models/user.js` and the collection that
    holds the records. The collection is a sequence in insertion order: a
    record's id is its position, and records are never removed, so ids stay
    stable. A query that returns "the first matching document" is
    `FindFirst`. */
module Accounts {
  import opened Text
  import opened Crypto

  /** An instant, in milliseconds since the Unix epoch. */
  type Time = int

  /** A record id (the document's `_id`). */
  type Id = nat

  datatype Account = Account(
    firstName: string,
    lastName: string,
    email: string,
    password: PasswordHash,
    dob: string,
    isVerified: bool,
    verificationCode: Option<string>,
    verificationCodeExpires: Option<Time>,
    verifiedAt: Option<Time>,
    lastVerificationRequest: Option<Time>,
    passwordResetToken: Option<Digest>,
    passwordResetExpires: Option<Time>,
    passwordResetAttempts: nat,
    lastPasswordResetRequest: Option<Time>,
    createdAt: Time,
    updatedAt: Time)

  type Store = seq<Account>

  /** The schema's `required: true` fields: a required string must be
      non-empty. The password hash is always present by construction. */
  predicate SchemaValid(a: Account) {
    a.firstName != [] && a.lastName != [] && a.email != [] && a.dob != []
  }

  /** The schema's `unique: true` on `email`. */
  predicate UniqueEmails(s: Store) {
    forall i, j :: 0 <= i < |s| && 0 <= j < |s| && i != j ==> s[i].email != s[j].email
  }

  /** A document built from the given fields, with the schema defaults for
      every field not given and both timestamps set to the save time. */
  function NewAccount(firstName: string, lastName: string, email: string, password: PasswordHash,
                      dob: string, code: string, codeExpires: Time, now: Time): (a: Account)
    ensures !a.isVerified && a.passwordResetAttempts == 0
    ensures a.verifiedAt.None? && a.lastVerificationRequest.None?
    ensures a.passwordResetToken.None? && a.passwordResetExpires.None? && a.lastPasswordResetRequest.None?
    ensures a.verificationCode == Some(code) && a.verificationCodeExpires == Some(codeExpires)
    ensures a.firstName == firstName && a.lastName == lastName && a.email == email
    ensures a.password == password && a.dob == dob
    ensures a.createdAt == now && a.updatedAt == now
  {
    Account(firstName, lastName, email, password, dob, false, Some(code), Some(codeExpires),
            None, None, None, None, 0, None, now, now)
  }

  /** The first record satisfying `p`, as `findOne` returns it. */
  function FindFirst(s: Store, p: Account -> bool): (r: Option<Id>)
    ensures r.Some? ==> r.value < |s| && p(s[r.value])
    ensures r.Some? ==> forall j :: 0 <= j < r.value ==> !p(s[j])
    ensures r.None? ==> forall j :: 0 <= j < |s| ==> !p(s[j])
  {
    if |s| == 0 then None
    else if p(s[0]) then Some(0)
    else match FindFirst(s[1..], p)
      case None => None
      case Some(k) => Some(k + 1)
  }

  /** `findOne({ email })`. */
  function FindByEmail(s: Store, email: string): (r: Option<Id>)
    ensures r.Some? ==> r.value < |s| && s[r.value].email == email
    ensures r.None? <==> forall j :: 0 <= j < |s| ==> s[j].email != email
  {
    FindFirst(s, (a: Account) => a.email == email)
  }

  /** With unique emails the record `findOne({ email })` returns is the only
      one carrying that email. */
  lemma FindByEmailUnique(s: Store, email: string, i: Id)
    requires UniqueEmails(s)
    requires i < |s| && s[i].email == email
    ensures FindByEmail(s, email) == Some(i)
  {
  }

  /** `findById(id)`. */
  function FindById(s: Store, id: Id): (r: Option<Account>)
    ensures r.Some? <==> id < |s|
    ensures r.Some? ==> r.value == s[id]
  {
    if id < |s| then Some(s[id]) else None
  }

  /** The query condition `{ $gt: new Date() }` on an optional instant: an
      absent value never matches. */
  predicate Live(expiry: Option<Time>, now: Time) {
    expiry.Some? && expiry.value > now
  }

  /** `toObject()` with `password`, `verificationCode` and
      `verificationCodeExpires` deleted: what `register` and `verifyEmail`
      send back. */
  datatype AccountView = AccountView(
    id: Id,
    firstName: string,
    lastName: string,
    email: string,
    dob: string,
    isVerified: bool,
    verifiedAt: Option<Time>,
    lastVerificationRequest: Option<Time>,
    passwordResetToken: Option<Digest>,
    passwordResetExpires: Option<Time>,
    passwordResetAttempts: nat,
    lastPasswordResetRequest: Option<Time>,
    createdAt: Time,
    updatedAt: Time)

  function Redact(id: Id, a: Account): AccountView {
    AccountView(id, a.firstName, a.lastName, a.email, a.dob, a.isVerified, a.verifiedAt,
                a.lastVerificationRequest, a.passwordResetToken, a.passwordResetExpires,
                a.passwordResetAttempts, a.lastPasswordResetRequest, a.createdAt, a.updatedAt)
  }

  /** The view sent back does not depend on the password hash or the
      verification code and its expiry. */
  lemma RedactHidesSecrets(id: Id, a: Account, password: PasswordHash, code: Option<string>, codeExpires: Option<Time>)
    ensures Redact(id, a) == Redact(id, a.(password := password, verificationCode := code,
                                           verificationCodeExpires := codeExpires))
  {
  }

  /** The `userData` object that `login` and `checkAuth` send back. */
  datatype Profile = Profile(
    id: Id,
    firstName: string,
    lastName: string,
    email: string,
    isVerified: bool,
    dob: string,
    createdAt: Time)

  function ProfileOf(id: Id, a: Account): Profile {
    Profile(id, a.firstName, a.lastName, a.email, a.isVerified, a.dob, a.createdAt)
  }

  /** The profile sent back does not depend on the password hash, the
      verification code or any reset-link field. */
  lemma ProfileHidesSecrets(id: Id, a: Account, password: PasswordHash, code: Option<string>,
                            token: Option<Digest>, attempts: nat)
    ensures ProfileOf(id, a) == ProfileOf(id, a.(password := password, verificationCode := code,
                                                passwordResetToken := token, passwordResetAttempts := attempts))
  {
  }
}

=== FILE: auth_controller.dfy ===
/** The handlers of `backend/controllers/Auth.js`, each a pure transition
    from the store, the clock reading `now` (milliseconds) and the request
    to a reply and the new store. Randomness (the six-digit code, the raw
    reset token), the hash salt and the outcome of the one e-mail whose
    failure the handler acts on are inputs. */
module AuthController {
  import opened Text
  import opened Crypto
  import opened Accounts

  /** 15 minutes: how long a verification code is accepted. */
  const VerificationCodeLifetime: int := 15 * 60 * 1000
  /** The `expiresIn` the resend reply reports, in minutes. */
  const CodeExpiresInMinutes: nat := 15
  /** 1 minute between verification-code requests. */
  const ResendCooldown: int := 60 * 1000
  /** 2 minutes between password-reset requests. */
  const ResetCooldown: int := 2 * 60 * 1000
  /** 1 hour: how long a reset link is accepted. */
  const ResetTokenLifetime: int := 60 * 60 * 1000
  /** Reset links issued before the account is locked out of the flow. */
  const MaxResetAttempts: nat := 5
  /** Shortest password `resetPassword` and `changePassword` accept. */
  const MinPasswordLength: nat := 6

  // ---------------------------------------------------------------- replies

  /** Every error reply of the controller and the gate; the comment gives
      the status code. */
  datatype Failure =
    | AllFieldsRequired           // 400 register
    | UserAlreadyExists           // 400 register
    | EmailAndCodeRequired        // 400 verifyEmail
    | CodeExpired                 // 400 verifyEmail
    | InvalidCode                 // 400 verifyEmail
    | EmailRequired               // 400 resend, forgot, status
    | NotRegistered               // 404 resend
    | AlreadyVerified             // 400 resend
    | ResendTooSoon(waitSeconds: int)  // 429 resend
    | CredentialsRequired         // 400 login
    | InvalidCredentials          // 401 login
    | EmailNotVerified            // 403 login
    | NotAuthenticated            // 401 checkAuth
    | SessionUserGone             // 401 checkAuth
    | VerifyBeforeReset           // 400 forgot
    | ResetTooSoon(waitSeconds: int)   // 429 forgot
    | TooManyResetAttempts        // 429 forgot
    | ResetEmailFailed            // 500 forgot
    | ResetTokenRequired          // 400 validateResetToken
    | InvalidResetToken           // 400 validateResetToken, resetPassword
    | TokenAndPasswordRequired    // 400 resetPassword
    | PasswordTooShort            // 400 resetPassword
    | AuthenticationRequired      // 401 changePassword
    | PasswordsRequired           // 400 changePassword
    | NewPasswordTooShort         // 400 changePassword
    | UserNotFound                // 404 changePassword, status
    | CurrentPasswordIncorrect    // 400 changePassword
    | SamePassword                // 400 changePassword
    | AccessTokenRequired         // 401 authenticateToken
    | InvalidAccessToken          // 403 authenticateToken

  datatype Success =
    | Registered(user: AccountView)
    | EmailVerified(user: AccountView)
    | CodeResent(expiresIn: nat)
    | LoggedIn(token: Claims, profile: Profile)
    | Authenticated(profile: Profile)
    | LoggedOut
    | ResetRequestAcknowledged
    | ResetLinkSent
    | ResetTokenValid(email: string)
    | PasswordWasReset
    | PasswordChanged
    | VerificationStatus(isVerified: bool, email: string, firstName: string)

  datatype Reply = Ok(success: Success) | Err(failure: Failure)

  /** The HTTP status each reply is sent with: every success is 2xx (201
      only for a registration) and every failure 4xx, except the 500 of an
      undelivered reset mail. */
  function StatusCode(r: Reply): (code: nat)
    ensures r.Ok? <==> 200 <= code < 300
    ensures code == 201 <==> r.Ok? && r.success.Registered?
    ensures r.Err? ==> code in {400, 401, 403, 404, 429, 500}
    ensures code == 500 <==> r == Err(ResetEmailFailed)
    ensures code == 404 <==> r == Err(NotRegistered) || r == Err(UserNotFound)
    ensures code == 429 <==> r.Err? && (r.failure.ResendTooSoon? || r.failure.ResetTooSoon? || r.failure == TooManyResetAttempts)
    ensures code == 403 <==> r == Err(EmailNotVerified) || r == Err(InvalidAccessToken)
    ensures code == 401 <==>
              r == Err(InvalidCredentials) || r == Err(NotAuthenticated) || r == Err(SessionUserGone)
              || r == Err(AuthenticationRequired) || r == Err(AccessTokenRequired)
  {
    match r
    case Ok(Registered(_)) => 201
    case Ok(_) => 200
    case Err(f) =>
      match f
      case NotRegistered | UserNotFound => 404
      case ResendTooSoon(_) | ResetTooSoon(_) | TooManyResetAttempts => 429
      case InvalidCredentials | NotAuthenticated | SessionUserGone
         | AuthenticationRequired | AccessTokenRequired => 401
      case EmailNotVerified | InvalidAccessToken => 403
      case ResetEmailFailed => 500
      case _ => 400
  }

  /** A handler's reply together with the store it leaves behind. */
  datatype Step = Step(reply: Reply, store: Store)

  // ------------------------------------------------------------ invariant

  /** A six-digit code as `Math.floor(100000 + Math.random() * 900000)
      .toString()` produces it. */
  predicate IsSixDigitCode(c: string) {
    |c| == 6 && AllDigits(c) && c[0] != '0'
  }

  /** What the handlers keep true of every record they write. */
  predicate Lifecycle(a: Account) {
    && a.email == Trim(a.email)
    && (a.isVerified <==> a.verifiedAt.Some?)
    && (a.isVerified ==> a.verificationCode.None?)
    && (a.verificationCode.Some? <==> a.verificationCodeExpires.Some?)
    && (a.verificationCode.Some? ==> IsSixDigitCode(a.verificationCode.value))
    && (a.passwordResetToken.Some? <==> a.passwordResetExpires.Some?)
    && (a.passwordResetToken.Some? ==> a.isVerified && a.passwordResetAttempts >= 1)
    && (a.lastPasswordResetRequest.Some? ==> a.isVerified)
    && a.passwordResetAttempts <= MaxResetAttempts
  }

  predicate Inv(s: Store) {
    && UniqueEmails(s)
    && forall i :: 0 <= i < |s| ==> SchemaValid(s[i]) && Lifecycle(s[i])
  }

  // ------------------------------------------------------ request fields

  /** JavaScript truthiness of a string field of the request body. */
  predicate Present(f: Option<string>) {
    f.Some? && f.value != []
  }

  /** `req.body.email ? req.body.email.trim() : null`, then `!email`: the
      trimmed address, or nothing when it is missing or blank. */
  function BodyEmail(f: Option<string>): (r: Option<string>)
    ensures r.Some? <==> f.Some? && !AllSpace(f.value)
    ensures r.Some? ==> r.value == Trim(f.value) && r.value != []
  {
    if f.Some? && f.value != [] then
      TrimEmptyIffAllSpace(f.value);
      if Trim(f.value) != [] then Some(Trim(f.value)) else None
    else None
  }

  /** The ceiling of `x / d`, as `Math.ceil` of the quotient. */
  function CeilDiv(x: int, d: nat): (r: int)
    requires d > 0
    ensures (r - 1) * d < x <= r * d
  {
    if x % d == 0 then x / d else x / d + 1
  }

  /** The stored form of a generated verification code. */
  function CodeString(code: nat): (c: string)
    requires 100000 <= code <= 999999
    ensures IsSixDigitCode(c)
    ensures ParseDecimal(c) == code
  {
    assert Pow10(5) == 100000 && Pow10(6) == 1000000;
    DecimalLength(code, 6);
    ParseDecimalOfDecimal(code);
    Decimal(code)
  }

  // -------------------------------------------------------------- register

  datatype RegisterBody = RegisterBody(
    firstName: Option<string>,
    lastName: Option<string>,
    email: Option<string>,
    password: Option<string>,
    dob: Option<string>)

  predicate RegisterFieldsPresent(b: RegisterBody) {
    Present(b.firstName) && Present(b.lastName) && BodyEmail(b.email).Some?
    && Present(b.password) && Present(b.dob)
  }

  /** `register`: `code` is the generated number, `salt` the hash salt. */
  function Register(s: Store, b: RegisterBody, code: nat, salt: nat, now: Time): (r: Step)
    requires 100000 <= code <= 999999
    ensures r.reply == Err(AllFieldsRequired) <==> !RegisterFieldsPresent(b)
    ensures r.reply == Err(UserAlreadyExists) <==>
              RegisterFieldsPresent(b) && exists i :: 0 <= i < |s| && s[i].email == Trim(b.email.value)
    ensures r.reply.Ok? <==>
              RegisterFieldsPresent(b) && forall j :: 0 <= j < |s| ==> s[j].email != BodyEmail(b.email).value
    ensures r.reply.Err? ==> r.store == s
    ensures r.reply.Ok? ==>
              && r.reply.success.Registered?
              && |r.store| == |s| + 1 && r.store[..|s|] == s
              && r.reply.success.user == Redact(|s|, r.store[|s|])
    ensures r.reply.Ok? ==>
              var a := r.store[|s|];
              && a.email == Trim(b.email.value) && a.email != []
              && a.firstName == b.firstName.value && a.lastName == b.lastName.value
              && a.dob == b.dob.value && Matches(b.password.value, a.password)
              && !a.isVerified && a.passwordResetAttempts == 0
              && a.verificationCode == Some(CodeString(code))
              && a.verificationCodeExpires == Some(now + VerificationCodeLifetime)
              && a.passwordResetToken.None? && a.createdAt == now
    ensures r.reply.Ok? ==>
              r.store[|s|] == NewAccount(b.firstName.value, b.lastName.value, BodyEmail(b.email).value,
                                         r.store[|s|].password, b.dob.value, CodeString(code),
                                         now + VerificationCodeLifetime, now)
  {
    if !RegisterFieldsPresent(b) then Step(Err(AllFieldsRequired), s)
    else
      var email := BodyEmail(b.email).value;
      if FindByEmail(s, email).Some? then Step(Err(UserAlreadyExists), s)
      else
        var a := NewAccount(b.firstName.value, b.lastName.value, email,
                            HashPassword(b.password.value, salt), b.dob.value,
                            CodeString(code), now + VerificationCodeLifetime, now);
        TrimIdempotent(b.email.value);
        var s' := s + [a];
        assert s'[..|s|] == s;
        Step(Ok(Registered(Redact(|s|, a))), s')
  }

  // ----------------------------------------------------------- verifyEmail

  predicate CodeMatches(a: Account, email: string, code: string) {
    a.email == email && a.verificationCode == Some(code)
  }

  /** The record `verifyEmail` marks verified. */
  function MarkVerified(a: Account, now: Time): (v: Account)
    ensures v.isVerified && v.verifiedAt == Some(now)
    ensures v.verificationCode.None? && v.verificationCodeExpires.None?
    ensures v == a.(isVerified := v.isVerified, verificationCode := None, verificationCodeExpires := None,
                    verifiedAt := v.verifiedAt, updatedAt := now)
  {
    a.(isVerified := true, verificationCode := None, verificationCodeExpires := None,
       verifiedAt := Some(now), updatedAt := now)
  }

  /** `verifyEmail`. */
  function VerifyEmail(s: Store, email: Option<string>, code: Option<string>, now: Time): (r: Step)
    ensures r.reply == Err(EmailAndCodeRequired) <==> BodyEmail(email).None? || !Present(code)
    ensures r.reply.Ok? <==>
              BodyEmail(email).Some? && Present(code) &&
              exists i :: 0 <= i < |s| && CodeMatches(s[i], BodyEmail(email).value, code.value)
                          && Live(s[i].verificationCodeExpires, now)
    ensures r.reply == Err(CodeExpired) <==>
              BodyEmail(email).Some? && Present(code) && !r.reply.Ok? &&
              exists i :: 0 <= i < |s| && CodeMatches(s[i], BodyEmail(email).value, code.value)
    ensures r.reply == Err(InvalidCode) <==>
              BodyEmail(email).Some? && Present(code) &&
              forall i :: 0 <= i < |s| ==> !CodeMatches(s[i], BodyEmail(email).value, code.value)
    ensures r.reply.Err? ==> r.store == s
    ensures r.reply.Ok? ==>
              && r.reply.success.EmailVerified?
              && var i := r.reply.success.user.id;
              && i < |s| && CodeMatches(s[i], BodyEmail(email).value, code.value)
              && r.store == s[i := MarkVerified(s[i], now)]
              && r.reply.success.user == Redact(i, r.store[i])
  {
    var e := BodyEmail(email);
    if e.None? || !Present(code) then Step(Err(EmailAndCodeRequired), s)
    else
      var c := code.value;
      match FindFirst(s, (a: Account) => CodeMatches(a, e.value, c) && Live(a.verificationCodeExpires, now))
      case Some(i) =>
        var v := MarkVerified(s[i], now);
        Step(Ok(EmailVerified(Redact(i, v))), s[i := v])
      case None =>
        if FindFirst(s, (a: Account) => CodeMatches(a, e.value, c)).Some? then Step(Err(CodeExpired), s)
        else Step(Err(InvalidCode), s)
  }

  // ------------------------------------------------ resendVerificationCode

  /** `resendVerificationCode`: `code` is the newly generated number. */
  function ResendVerificationCode(s: Store, email: Option<string>, code: nat, now: Time): (r: Step)
    requires 100000 <= code <= 999999
    ensures r.reply == Err(EmailRequired) <==> BodyEmail(email).None?
    ensures r.reply == Err(NotRegistered) <==>
              BodyEmail(email).Some? && forall j :: 0 <= j < |s| ==> s[j].email != BodyEmail(email).value
    ensures r.reply.Err? ==> r.store == s
    ensures r.reply.Ok? ==> r.reply.success == CodeResent(CodeExpiresInMinutes)
    ensures BodyEmail(email).Some? && FindByEmail(s, BodyEmail(email).value).Some? ==>
              var i := FindByEmail(s, BodyEmail(email).value).value;
              var last := if s[i].lastVerificationRequest.Some? then s[i].lastVerificationRequest.value else 0;
              && (r.reply == Err(AlreadyVerified) <==> s[i].isVerified)
              && (r.reply.Err? && r.reply.failure.ResendTooSoon? <==>
                    !s[i].isVerified && now - last < ResendCooldown)
              && (r.reply.Err? && r.reply.failure.ResendTooSoon? ==>
                    r.reply.failure.waitSeconds * 1000 >= ResendCooldown - (now - last) > (r.reply.failure.waitSeconds - 1) * 1000)
              && (r.reply.Ok? <==> !s[i].isVerified && now - last >= ResendCooldown)
              && (r.reply.Ok? ==>
                    r.store == s[i := s[i].(verificationCode := Some(CodeString(code)),
                                            verificationCodeExpires := Some(now + VerificationCodeLifetime),
                                            lastVerificationRequest := Some(now), updatedAt := now)])
  {
    var e := BodyEmail(email);
    if e.None? then Step(Err(EmailRequired), s)
    else match FindByEmail(s, e.value)
      case None => Step(Err(NotRegistered), s)
      case Some(i) =>
        var a := s[i];
        if a.isVerified then Step(Err(AlreadyVerified), s)
        else
          var last := if a.lastVerificationRequest.Some? then a.lastVerificationRequest.value else 0;
          var elapsed := now - last;
          if elapsed < ResendCooldown then
            Step(Err(ResendTooSoon(CeilDiv(ResendCooldown - elapsed, 1000))), s)
          else
            var a' := a.(verificationCode := Some(CodeString(code)),
                         verificationCodeExpires := Some(now + VerificationCodeLifetime),
                         lastVerificationRequest := Some(now), updatedAt := now);
            Step(Ok(CodeResent(CodeExpiresInMinutes)), s[i := a'])
  }

  // ----------------------------------------------------------------- login

  /** `login`: a read-only handler; the token carries the record's id and
      e-mail. */
  function Login(s: Store, email: Option<string>, password: Option<string>, now: Time): (r: Reply)
    ensures r == Err(CredentialsRequired) <==> BodyEmail(email).None? || !Present(password)
    ensures r == Err(InvalidCredentials) <==>
              BodyEmail(email).Some? && Present(password) &&
              forall j :: 0 <= j < |s| && s[j].email == BodyEmail(email).value ==>
                            !Matches(password.value, s[j].password) || j != FindByEmail(s, BodyEmail(email).value).value
    ensures r == Err(EmailNotVerified) ==>
              exists j :: 0 <= j < |s| && s[j].email == BodyEmail(email).value
                          && Matches(password.value, s[j].password) && !s[j].isVerified
    ensures BodyEmail(email).Some? && Present(password) && FindByEmail(s, BodyEmail(email).value).Some? ==>
              var i := FindByEmail(s, BodyEmail(email).value).value;
              && (r.Ok? <==> Matches(password.value, s[i].password) && s[i].isVerified)
              && (r == Err(EmailNotVerified) <==> Matches(password.value, s[i].password) && !s[i].isVerified)
    ensures r.Ok? ==>
              && r.success.LoggedIn?
              && var i := r.success.profile.id;
              && i < |s| && s[i].email == BodyEmail(email).value
              && Matches(password.value, s[i].password) && s[i].isVerified
              && r.success.profile == ProfileOf(i, s[i])
              && r.success.token.userId == i && r.success.token.email == s[i].email
              && r.success.token.exp - r.success.token.iat == TokenLifetimeSeconds
              && r.success.token.iat * 1000 <= now < r.success.token.iat * 1000 + 1000
  {
    var e := BodyEmail(email);
    if e.None? || !Present(password) then Err(CredentialsRequired)
    else match FindByEmail(s, e.value)
      case None => Err(InvalidCredentials)
      case Some(i) =>
        if !Matches(password.value, s[i].password) then Err(InvalidCredentials)
        else if !s[i].isVerified then Err(EmailNotVerified)
        else Ok(LoggedIn(SignToken(i, s[i].email, now), ProfileOf(i, s[i])))
  }

  // ------------------------------------------------------ checkAuth, logout

  /** `checkAuth`: `user` is what the gate put in `req.user`. */
  function CheckAuth(s: Store, user: Option<Claims>): (r: Reply)
    ensures r == Err(NotAuthenticated) <==> user.None?
    ensures r == Err(SessionUserGone) <==> user.Some? && user.value.userId >= |s|
    ensures r.Ok? <==> user.Some? && user.value.userId < |s|
    ensures r.Ok? ==> r.success == Authenticated(ProfileOf(user.value.userId, s[user.value.userId]))
  {
    if user.None? then Err(NotAuthenticated)
    else match FindById(s, user.value.userId)
      case None => Err(SessionUserGone)
      case Some(a) => Ok(Authenticated(ProfileOf(user.value.userId, a)))
  }

  /** `logout`: tokens are not tracked by the server, so nothing changes. */
  function Logout(s: Store): (r: Step)
    ensures r.store == s && StatusCode(r.reply) == 200
  {
    Step(Ok(LoggedOut), s)
  }

  // --------------------------------------------------------- forgotPassword

  /** The record once a reset link has been issued. */
  function IssueResetToken(a: Account, raw: string, now: Time): (v: Account)
    ensures v.passwordResetToken == Some(Fingerprint(raw))
    ensures v.passwordResetExpires == Some(now + ResetTokenLifetime)
    ensures v.passwordResetAttempts == a.passwordResetAttempts + 1
    ensures v.lastPasswordResetRequest == Some(now)
    ensures v.password == a.password && v.email == a.email && v.isVerified == a.isVerified
    ensures v == a.(passwordResetToken := v.passwordResetToken, passwordResetExpires := v.passwordResetExpires,
                    passwordResetAttempts := v.passwordResetAttempts,
                    lastPasswordResetRequest := v.lastPasswordResetRequest, updatedAt := now)
  {
    a.(passwordResetToken := Some(Fingerprint(raw)),
       passwordResetExpires := Some(now + ResetTokenLifetime),
       passwordResetAttempts := a.passwordResetAttempts + 1,
       lastPasswordResetRequest := Some(now), updatedAt := now)
  }

  /** The record after the link could not be delivered: the token and its
      expiry are cleared; the attempt count and request time stay. */
  function RollBackResetToken(a: Account, now: Time): (v: Account)
    ensures v.passwordResetToken.None? && v.passwordResetExpires.None?
    ensures v == a.(passwordResetToken := None, passwordResetExpires := None, updatedAt := now)
  {
    a.(passwordResetToken := None, passwordResetExpires := None, updatedAt := now)
  }

  /** Whether a reset request at `now` is still inside the cooldown of the
      previous one; an account that never asked has no cooldown. */
  predicate InResetCooldown(a: Account, now: Time) {
    a.lastPasswordResetRequest.Some? && now - a.lastPasswordResetRequest.value < ResetCooldown
  }

  /** `forgotPassword`: `raw` is the generated token, `delivered` whether
      `sendPasswordResetEmail` returned normally. */
  function ForgotPassword(s: Store, email: Option<string>, raw: string, delivered: bool, now: Time): (r: Step)
    requires IsRawResetToken(raw)
    ensures r.reply == Err(EmailRequired) <==> BodyEmail(email).None?
    ensures r.reply == Ok(ResetRequestAcknowledged) <==>
              BodyEmail(email).Some? && forall j :: 0 <= j < |s| ==> s[j].email != BodyEmail(email).value
    ensures r.reply.Err? && r.reply.failure != ResetEmailFailed ==> r.store == s
    ensures r.reply == Ok(ResetRequestAcknowledged) ==> r.store == s
    ensures BodyEmail(email).Some? && FindByEmail(s, BodyEmail(email).value).Some? ==>
              var i := FindByEmail(s, BodyEmail(email).value).value;
              var a := s[i];
              && (r.reply == Err(VerifyBeforeReset) <==> !a.isVerified)
              && (r.reply.Err? && r.reply.failure.ResetTooSoon? <==> a.isVerified && InResetCooldown(a, now))
              && (r.reply.Err? && r.reply.failure.ResetTooSoon? ==>
                    var elapsed := now - a.lastPasswordResetRequest.value;
                    r.reply.failure.waitSeconds * 1000 >= ResetCooldown - elapsed > (r.reply.failure.waitSeconds - 1) * 1000)
              && (r.reply == Err(TooManyResetAttempts) <==>
                    a.isVerified && !InResetCooldown(a, now) && a.passwordResetAttempts >= MaxResetAttempts)
              && (r.reply == Ok(ResetLinkSent) <==>
                    a.isVerified && !InResetCooldown(a, now) && a.passwordResetAttempts < MaxResetAttempts && delivered)
              && (r.reply == Err(ResetEmailFailed) <==>
                    a.isVerified && !InResetCooldown(a, now) && a.passwordResetAttempts < MaxResetAttempts && !delivered)
              && (r.reply == Ok(ResetLinkSent) ==> r.store == s[i := IssueResetToken(a, raw, now)])
              && (r.reply == Err(ResetEmailFailed) ==>
                    r.store == s[i := RollBackResetToken(IssueResetToken(a, raw, now), now)])
  {
    var e := BodyEmail(email);
    if e.None? then Step(Err(EmailRequired), s)
    else match FindByEmail(s, e.value)
      case None => Step(Ok(ResetRequestAcknowledged), s)
      case Some(i) =>
        var a := s[i];
        if !a.isVerified then Step(Err(VerifyBeforeReset), s)
        else if InResetCooldown(a, now) then
          var elapsed := now - a.lastPasswordResetRequest.value;
          Step(Err(ResetTooSoon(CeilDiv(ResetCooldown - elapsed, 1000))), s)
        else if a.passwordResetAttempts >= MaxResetAttempts then Step(Err(TooManyResetAttempts), s)
        else
          var issued := IssueResetToken(a, raw, now);
          if delivered then Step(Ok(ResetLinkSent), s[i := issued])
          else Step(Err(ResetEmailFailed), s[i := RollBackResetToken(issued, now)])
  }

  // ------------------------------------- validateResetToken, resetPassword

  predicate HoldsResetToken(a: Account, token: string, now: Time) {
    a.passwordResetToken == Some(Fingerprint(token)) && Live(a.passwordResetExpires, now)
  }

  /** `findOne({ passwordResetToken: sha256(token), passwordResetExpires: { $gt: now } })`. */
  function FindByResetToken(s: Store, token: string, now: Time): (r: Option<Id>)
    ensures r.Some? ==> r.value < |s| && HoldsResetToken(s[r.value], token, now)
    ensures r.None? <==> forall j :: 0 <= j < |s| ==> !HoldsResetToken(s[j], token, now)
  {
    FindFirst(s, (a: Account) => HoldsResetToken(a, token, now))
  }

  /** `validateResetToken`: a read-only handler. */
  function ValidateResetToken(s: Store, token: Option<string>, now: Time): (r: Reply)
    ensures r == Err(ResetTokenRequired) <==> !Present(token)
    ensures r.Ok? <==> Present(token) && exists j :: 0 <= j < |s| && HoldsResetToken(s[j], token.value, now)
    ensures r == Err(InvalidResetToken) <==>
              Present(token) && forall j :: 0 <= j < |s| ==> !HoldsResetToken(s[j], token.value, now)
    ensures r.Ok? ==> exists j :: 0 <= j < |s| && HoldsResetToken(s[j], token.value, now)
                                  && r.success == ResetTokenValid(s[j].email)
  {
    if !Present(token) then Err(ResetTokenRequired)
    else match FindByResetToken(s, token.value, now)
      case None => Err(InvalidResetToken)
      case Some(i) => Ok(ResetTokenValid(s[i].email))
  }

  /** The record after a successful reset. */
  function ApplyReset(a: Account, password: string, salt: nat, now: Time): (v: Account)
    ensures Matches(password, v.password)
    ensures v.passwordResetToken.None? && v.passwordResetExpires.None?
    ensures v.passwordResetAttempts == 0 && v.lastPasswordResetRequest.None?
    ensures v == a.(password := v.password, passwordResetToken := None, passwordResetExpires := None,
                    passwordResetAttempts := 0, lastPasswordResetRequest := None, updatedAt := now)
  {
    a.(password := HashPassword(password, salt), passwordResetToken := None, passwordResetExpires := None,
       passwordResetAttempts := 0, lastPasswordResetRequest := None, updatedAt := now)
  }

  /** `resetPassword`. */
  function ResetPassword(s: Store, token: Option<string>, password: Option<string>, salt: nat, now: Time): (r: Step)
    ensures r.reply == Err(TokenAndPasswordRequired) <==> !Present(token) || !Present(password)
    ensures r.reply == Err(PasswordTooShort) <==>
              Present(token) && Present(password) && |password.value| < MinPasswordLength
    ensures r.reply.Ok? <==>
              Present(token) && Present(password) && |password.value| >= MinPasswordLength &&
              exists j :: 0 <= j < |s| && HoldsResetToken(s[j], token.value, now)
    ensures r.reply == Err(InvalidResetToken) <==>
              Present(token) && Present(password) && |password.value| >= MinPasswordLength &&
              forall j :: 0 <= j < |s| ==> !HoldsResetToken(s[j], token.value, now)
    ensures r.reply.Err? ==> r.store == s
    ensures r.reply.Ok? ==>
              r.reply.success == PasswordWasReset &&
              exists j :: 0 <= j < |s| && HoldsResetToken(s[j], token.value, now)
                          && r.store == s[j := ApplyReset(s[j], password.value, salt, now)]
  {
    if !Present(token) || !Present(password) then Step(Err(TokenAndPasswordRequired), s)
    else if |password.value| < MinPasswordLength then Step(Err(PasswordTooShort), s)
    else match FindByResetToken(s, token.value, now)
      case None => Step(Err(InvalidResetToken), s)
      case Some(i) => Step(Ok(PasswordWasReset), s[i := ApplyReset(s[i], password.value, salt, now)])
  }

  // --------------------------------------------------------- changePassword

  /** `changePassword`: `user` is what the gate put in `req.user`. */
  function ChangePassword(s: Store, user: Option<Claims>, currentPassword: Option<string>, newPassword: Option<string>,
                          salt: nat, now: Time): (r: Step)
    ensures r.reply == Err(AuthenticationRequired) <==> user.None?
    ensures r.reply == Err(PasswordsRequired) <==> user.Some? && (!Present(currentPassword) || !Present(newPassword))
    ensures r.reply == Err(NewPasswordTooShort) <==>
              user.Some? && Present(currentPassword) && Present(newPassword) && |newPassword.value| < MinPasswordLength
    ensures r.reply == Err(UserNotFound) <==>
              user.Some? && Present(currentPassword) && Present(newPassword) && |newPassword.value| >= MinPasswordLength
              && user.value.userId >= |s|
    ensures r.reply == Err(CurrentPasswordIncorrect) <==>
              user.Some? && Present(currentPassword) && Present(newPassword) && |newPassword.value| >= MinPasswordLength
              && user.value.userId < |s|
              && !Matches(currentPassword.value, s[user.value.userId].password)
    ensures r.reply == Err(SamePassword) <==>
              user.Some? && Present(currentPassword) && Present(newPassword) && |newPassword.value| >= MinPasswordLength
              && user.value.userId < |s|
              && Matches(currentPassword.value, s[user.value.userId].password)
              && Matches(newPassword.value, s[user.value.userId].password)
    ensures r.reply.Ok? <==>
              user.Some? && Present(currentPassword) && Present(newPassword) && |newPassword.value| >= MinPasswordLength
              && user.value.userId < |s|
              && Matches(currentPassword.value, s[user.value.userId].password)
              && !Matches(newPassword.value, s[user.value.userId].password)
    ensures r.reply.Err? ==> r.store == s
    ensures r.reply.Ok? ==>
              var i := user.value.userId;
              && r.reply.success == PasswordChanged
              && r.store == s[i := s[i].(password := HashPassword(newPassword.value, salt), updatedAt := now)]
  {
    if user.None? then Step(Err(AuthenticationRequired), s)
    else if !Present(currentPassword) || !Present(newPassword) then Step(Err(PasswordsRequired), s)
    else if |newPassword.value| < MinPasswordLength then Step(Err(NewPasswordTooShort), s)
    else match FindById(s, user.value.userId)
      case None => Step(Err(UserNotFound), s)
      case Some(a) =>
        if !Matches(currentPassword.value, a.password) then Step(Err(CurrentPasswordIncorrect), s)
        else if Matches(newPassword.value, a.password) then Step(Err(SamePassword), s)
        else
          var i := user.value.userId;
          Step(Ok(PasswordChanged), s[i := a.(password := HashPassword(newPassword.value, salt), updatedAt := now)])
  }

  // ------------------------------------------------ checkVerificationStatus

  /** `checkVerificationStatus`: a read-only handler. */
  function CheckVerificationStatus(s: Store, email: Option<string>): (r: Reply)
    ensures r == Err(EmailRequired) <==> BodyEmail(email).None?
    ensures r == Err(UserNotFound) <==>
              BodyEmail(email).Some? && forall j :: 0 <= j < |s| ==> s[j].email != BodyEmail(email).value
    ensures r.Ok? <==> BodyEmail(email).Some? && exists j :: 0 <= j < |s| && s[j].email == BodyEmail(email).value
    ensures r.Ok? ==> exists j :: 0 <= j < |s| && s[j].email == BodyEmail(email).value
                                  && r.success == VerificationStatus(s[j].isVerified, s[j].email, s[j].firstName)
  {
    var e := BodyEmail(email);
    if e.None? then Err(EmailRequired)
    else match FindByEmail(s, e.value)
      case None => Err(UserNotFound)
      case Some(i) => Ok(VerificationStatus(s[i].isVerified, s[i].email, s[i].firstName))
  }
}

=== FILE: auth_gate.dfy ===
/** `backend/middleware/auth.js`: the bearer-token gate in front of the
    protected routes, and `requireVerified`. Token verification
    (`jwt.verify` with the server key) is an oracle passed in as `verify`. */
module AuthGate {
  import opened Text
  import opened Crypto
  import opened Accounts
  import opened AuthController

  /** The gate either answers the request itself or calls the next handler
      with the decoded token as `req.user`. */
  datatype GateResult = Reject(failure: Failure) | Next(user: Claims)

  /** `authHeader && authHeader.split(' ')[1]`, then `!token`: the second
      space-separated word of the header, whatever the first word is. */
  function BearerToken(header: Option<string>): (t: Option<string>)
    ensures t.Some? ==> header.Some? && t.value != [] && ' ' !in t.value
    ensures header.Some? && ' ' !in header.value ==> t.None?
  {
    if header.None? || header.value == [] then None
    else
      var parts := Split(header.value, ' ');
      if |parts| < 2 || parts[1] == [] then None
      else
        assert ' ' !in parts[1];
        Some(parts[1])
  }

  /** A header `<scheme> <token>` or `<scheme> <token> <more>` yields the
      token, whichever scheme word comes first. */
  lemma {:induction false} BearerTokenOfHeader(scheme: string, token: string, more: seq<string>)
    requires ' ' !in scheme && ' ' !in token && token != []
    requires forall k :: 0 <= k < |more| ==> ' ' !in more[k]
    ensures BearerToken(Some(Join([scheme, token] + more, ' '))) == Some(token)
  {
    var parts := [scheme, token] + more;
    assert forall k :: 0 <= k < |parts| ==> ' ' !in parts[k] by {
      forall k | 0 <= k < |parts| ensures ' ' !in parts[k] {
        if k >= 2 { assert parts[k] == more[k - 2]; }
      }
    }
    SplitJoin(parts, ' ');
    var h := Join(parts, ' ');
    assert h == scheme + [' '] + Join(parts[1..], ' ');
    assert h != [];
  }

  /** A header whose second word is empty (`<scheme>` followed by two
      spaces, or a trailing space) yields no token, so the gate answers 401. */
  lemma {:induction false} EmptySecondWordGivesNoToken(scheme: string, more: seq<string>)
    requires ' ' !in scheme
    requires forall k :: 0 <= k < |more| ==> ' ' !in more[k]
    ensures BearerToken(Some(Join([scheme, []] + more, ' '))) == None
  {
    var parts := [scheme, []] + more;
    assert forall k :: 0 <= k < |parts| ==> ' ' !in parts[k] by {
      forall k | 0 <= k < |parts| ensures ' ' !in parts[k] {
        if k >= 2 { assert parts[k] == more[k - 2]; }
      }
    }
    SplitJoin(parts, ' ');
  }

  /** `authenticateToken`. */
  function AuthenticateToken(header: Option<string>, verify: string -> Option<Claims>): (r: GateResult)
    ensures r == Reject(AccessTokenRequired) <==> BearerToken(header).None?
    ensures r == Reject(InvalidAccessToken) <==>
              BearerToken(header).Some? && verify(BearerToken(header).value).None?
    ensures r.Next? <==> BearerToken(header).Some? && verify(BearerToken(header).value).Some?
    ensures r.Next? ==> Some(r.user) == verify(BearerToken(header).value)
  {
    match BearerToken(header)
    case None => Reject(AccessTokenRequired)
    case Some(token) =>
      match verify(token)
      case None => Reject(InvalidAccessToken)
      case Some(claims) => Next(claims)
  }

  /** A gate reply as the client sees it. */
  function GateStatus(r: GateResult): (code: nat)
    requires r.Reject?
    ensures r.failure == AccessTokenRequired ==> code == 401
    ensures r.failure == InvalidAccessToken ==> code == 403
  {
    StatusCode(Err(r.failure))
  }

  /** `requireVerified`: passes every request on, verified or not. */
  function RequireVerified(s: Store, user: Claims): (r: GateResult)
    ensures r == Next(user)
    ensures user.userId < |s| && !s[user.userId].isVerified ==> r.Next?
  {
    Next(user)
  }

  /** `GET /check-auth`: the gate, then `checkAuth`. */
  function CheckAuthRoute(s: Store, header: Option<string>, verify: string -> Option<Claims>): (r: Reply)
    ensures BearerToken(header).None? ==> r == Err(AccessTokenRequired)
    ensures r != Err(NotAuthenticated)
    ensures r.Ok? <==> AuthenticateToken(header, verify).Next? && AuthenticateToken(header, verify).user.userId < |s|
    ensures AuthenticateToken(header, verify).Reject? ==> r == Err(AuthenticateToken(header, verify).failure)
    ensures r == Err(SessionUserGone) <==>
              AuthenticateToken(header, verify).Next? && AuthenticateToken(header, verify).user.userId >= |s|
    ensures r.Ok? ==> exists c :: verify(BearerToken(header).value) == Some(c) && c.userId < |s|
                                  && r.success == Authenticated(ProfileOf(c.userId, s[c.userId]))
  {
    match AuthenticateToken(header, verify)
    case Reject(f) => Err(f)
    case Next(c) => CheckAuth(s, Some(c))
  }

  /** `POST /logout`: the gate, then `logout`. */
  function LogoutRoute(s: Store, header: Option<string>, verify: string -> Option<Claims>): (r: Step)
    ensures r.store == s
    ensures r.reply.Ok? <==> AuthenticateToken(header, verify).Next?
    ensures AuthenticateToken(header, verify).Reject? ==> r.reply == Err(AuthenticateToken(header, verify).failure)
  {
    match AuthenticateToken(header, verify)
    case Reject(f) => Step(Err(f), s)
    case Next(_) => Logout(s)
  }
}

=== FILE: auth_invariant.dfy ===
/** Every state-changing handler keeps the store invariant `Inv`: e-mails
    stay unique, required fields stay filled, and the verification and
    reset fields stay paired as the lifecycle demands. */
module AuthInvariant {
  import opened Text
  import opened Crypto
  import opened Accounts
  import opened AuthController

  /** Replacing one record by a well-formed record with the same e-mail
      keeps the invariant. */
  lemma {:induction false} UpdateKeepsInv(s: Store, i: Id, a: Account)
    requires Inv(s) && i < |s|
    requires a.email == s[i].email && SchemaValid(a) && Lifecycle(a)
    ensures Inv(s[i := a])
  {
    UpdateKeepsUniqueEmails(s, i, a);
    UpdateKeepsRecords(s, i, a);
  }

  lemma UpdateKeepsUniqueEmails(s: Store, i: Id, a: Account)
    requires UniqueEmails(s) && i < |s|
    requires a.email == s[i].email
    ensures UniqueEmails(s[i := a])
  {
    var s' := s[i := a];
    forall j, k | 0 <= j < |s'| && 0 <= k < |s'| && j != k
      ensures s'[j].email != s'[k].email
    {
      assert s'[j].email == s[j].email && s'[k].email == s[k].email;
    }
  }

  lemma UpdateKeepsRecords(s: Store, i: Id, a: Account)
    requires i < |s| && forall j :: 0 <= j < |s| ==> SchemaValid(s[j]) && Lifecycle(s[j])
    requires SchemaValid(a) && Lifecycle(a)
    ensures var s' := s[i := a]; forall j :: 0 <= j < |s'| ==> SchemaValid(s'[j]) && Lifecycle(s'[j])
  {
  }

  lemma RegisterKeepsInv(s: Store, b: RegisterBody, code: nat, salt: nat, now: Time)
    requires 100000 <= code <= 999999
    requires Inv(s)
    ensures Inv(Register(s, b, code, salt, now).store)
  {
    var r := Register(s, b, code, salt, now);
    if r.reply.Ok? {
      var s' := r.store;
      var a := s'[|s|];
      assert s' == s + [a] by { assert s'[..|s|] == s; }
      TrimIdempotent(b.email.value);
      assert Lifecycle(a);
      forall j, k | 0 <= j < |s'| && 0 <= k < |s'| && j != k
        ensures s'[j].email != s'[k].email
      {
        if j == |s| {
          assert s'[k] == s[k];
        } else if k == |s| {
          assert s'[j] == s[j];
        }
      }
    }
  }

  lemma VerifyEmailKeepsInv(s: Store, email: Option<string>, code: Option<string>, now: Time)
    requires Inv(s)
    ensures Inv(VerifyEmail(s, email, code, now).store)
  {
    var r := VerifyEmail(s, email, code, now);
    if r.reply.Ok? {
      var i := r.reply.success.user.id;
      UpdateKeepsInv(s, i, MarkVerified(s[i], now));
    }
  }

  lemma ResendKeepsInv(s: Store, email: Option<string>, code: nat, now: Time)
    requires 100000 <= code <= 999999
    requires Inv(s)
    ensures Inv(ResendVerificationCode(s, email, code, now).store)
  {
    var r := ResendVerificationCode(s, email, code, now);
    if r.reply.Ok? {
      var i := FindByEmail(s, BodyEmail(email).value).value;
      UpdateKeepsInv(s, i, r.store[i]);
    }
  }

  lemma ForgotPasswordKeepsInv(s: Store, email: Option<string>, raw: string, delivered: bool, now: Time)
    requires IsRawResetToken(raw)
    requires Inv(s)
    ensures Inv(ForgotPassword(s, email, raw, delivered, now).store)
  {
    var r := ForgotPassword(s, email, raw, delivered, now);
    if r.store != s {
      var i := FindByEmail(s, BodyEmail(email).value).value;
      UpdateKeepsInv(s, i, r.store[i]);
    }
  }

  lemma ResetPasswordKeepsInv(s: Store, token: Option<string>, password: Option<string>, salt: nat, now: Time)
    requires Inv(s)
    ensures Inv(ResetPassword(s, token, password, salt, now).store)
  {
    var r := ResetPassword(s, token, password, salt, now);
    if r.reply.Ok? {
      var j :| 0 <= j < |s| && HoldsResetToken(s[j], token.value, now)
                && r.store == s[j := ApplyReset(s[j], password.value, salt, now)];
      UpdateKeepsInv(s, j, r.store[j]);
    }
  }

  lemma ChangePasswordKeepsInv(s: Store, user: Option<Claims>, currentPassword: Option<string>,
                               newPassword: Option<string>, salt: nat, now: Time)
    requires Inv(s)
    ensures Inv(ChangePassword(s, user, currentPassword, newPassword, salt, now).store)
  {
    var r := ChangePassword(s, user, currentPassword, newPassword, salt, now);
    if r.reply.Ok? {
      UpdateKeepsInv(s, user.value.userId, r.store[user.value.userId]);
    }
  }
}

=== FILE: crypto.dfy ===
/** The cryptographic collaborators of the account controller, as abstract
    values: the salted password hash, the reset-token digest and the signed
    session token. Only the properties the controller relies on are kept. */
module Crypto {

  /** A salted one-way password hash. The model keeps the salt and the
      secret so that `Matches` can be defined; the controller never reads
      either field and only calls `HashPassword` and `Matches`. */
  datatype PasswordHash = BcryptHash(salt: nat, secret: string)

  /** `bcrypt.hash(password, 10)` with the salt drawn by the library. */
  function HashPassword(password: string, salt: nat): (h: PasswordHash)
    ensures Matches(password, h)
  {
    BcryptHash(salt, password)
  }

  /** `bcrypt.compare(password, hash)`. */
  predicate Matches(password: string, h: PasswordHash) {
    h.secret == password
  }

  /** A hash accepts the password it was made from and nothing else, and the
      salt plays no part in the comparison. */
  lemma MatchesExactlyTheHashedPassword(password: string, candidate: string, salt: nat)
    ensures Matches(candidate, HashPassword(password, salt)) <==> candidate == password
  {
  }

  /** The hex SHA-256 digest of a string. */
  datatype Digest = Sha256Hex(input: string)

  /** `crypto.createHash('sha256').update(token).digest('hex')`. */
  function Fingerprint(token: string): Digest
  {
    Sha256Hex(token)
  }

  /** Distinct tokens have distinct fingerprints (collision resistance taken
      as exact), and the same token always has the same one. */
  lemma FingerprintInjective(a: string, b: string)
    ensures Fingerprint(a) == Fingerprint(b) <==> a == b
  {
  }

  predicate IsLowerHex(c: char) {
    ('0' <= c <= '9') || ('a' <= c <= 'f')
  }

  /** The shape of `crypto.randomBytes(32).toString('hex')`. */
  predicate IsRawResetToken(t: string) {
    |t| == 64 && forall k :: 0 <= k < |t| ==> IsLowerHex(t[k])
  }

  /** The JWT payload `{ userId, email }` with the `iat`/`exp` claims that
      `jsonwebtoken` adds, both in whole seconds. */
  datatype Claims = Claims(userId: nat, email: string, iat: int, exp: int)

  /** `expiresIn: '7d'`. */
  const TokenLifetimeSeconds: int := 7 * 24 * 60 * 60

  /** `jwt.sign({ userId, email }, key, { expiresIn: '7d' })` at time `now`
      (milliseconds): the issue time is the current second and the token
      expires exactly seven days later. */
  function SignToken(userId: nat, email: string, now: int): (c: Claims)
    ensures c.userId == userId && c.email == email
    ensures c.iat * 1000 <= now < c.iat * 1000 + 1000
    ensures c.exp - c.iat == 604800
  {
    Claims(userId, email, now / 1000, now / 1000 + TokenLifetimeSeconds)
  }
}

=== FILE: flows.dfy ===
/** Properties that span several handlers, or a page and the handler it
    posts to: the sign-up, verification, login and password-reset journeys
    as the system's users go through them. */
module Flows {
  import opened Text
  import opened Crypto
  import opened Accounts
  import opened AuthController
  import opened AuthInvariant
  import SignupPage
  import OtpPage
  import ResetPasswordPage
  import AuthGate

  // --------------------------------------------------------------- sign-up

  /** Whatever the sign-up page sends passes the handler's required-field
      check, and registers a new account when the trimmed address is new. */
  lemma SignupPayloadRegisters(s: Store, f: SignupPage.SignupForm, dob: SignupPage.DobCheck,
                               code: nat, salt: nat, now: Time)
    requires 100000 <= code <= 999999
    requires SignupPage.SubmitSignup(f, dob).SendRegistration?
    ensures RegisterFieldsPresent(SignupPage.SubmitSignup(f, dob).body)
    ensures (forall j :: 0 <= j < |s| ==> s[j].email != Trim(f.email)) ==>
              Register(s, SignupPage.SubmitSignup(f, dob).body, code, salt, now).reply.Ok?
  {
    var b := SignupPage.SubmitSignup(f, dob).body;
    TrimEmptyIffAllSpace(f.email);
    TrimIdempotent(f.email);
    TrimEmptyIffAllSpace(Trim(f.email));
    assert BodyEmail(b.email) == Some(Trim(f.email));
  }

  // ---------------------------------------------------------- verification

  /** The account `register` just created, as a precondition. */
  predicate JustRegistered(s: Store, b: RegisterBody, code: nat, salt: nat, now: Time)
    requires 100000 <= code <= 999999
  {
    Register(s, b, code, salt, now).reply.Ok?
  }

  /** The code that was mailed on registration verifies the account until
      it expires, and is refused as expired from then on. */
  lemma RegisteredCodeVerifiesUntilExpiry(s: Store, b: RegisterBody, code: nat, salt: nat, now: Time, t: Time)
    requires 100000 <= code <= 999999
    requires Inv(s) && JustRegistered(s, b, code, salt, now)
    ensures var s' := Register(s, b, code, salt, now).store;
            var r := VerifyEmail(s', b.email, Some(CodeString(code)), t);
            && (t < now + VerificationCodeLifetime ==> r.reply.Ok? && r.reply.success.user.id == |s|)
            && (t >= now + VerificationCodeLifetime ==> r.reply == Err(CodeExpired))
  {
    var s' := Register(s, b, code, salt, now).store;
    RegisterKeepsInv(s, b, code, salt, now);
    var e := BodyEmail(b.email).value;
    var c := CodeString(code);
    assert CodeMatches(s'[|s|], e, c);
    forall j | 0 <= j < |s'| && CodeMatches(s'[j], e, c) ensures j == |s| {
    }
  }

  /** The page side of the same step: typing the mailed code digit by digit
      into the six empty boxes makes the page post exactly that code. */
  lemma TypedCodeIsPosted(code: nat, email: string)
    requires 100000 <= code <= 999999 && email != []
    ensures OtpPage.WellFormed(OtpPage.TypeFrom(OtpPage.EmptySlots, CodeString(code), 0))
    ensures OtpPage.SubmitOtp(OtpPage.TypeFrom(OtpPage.EmptySlots, CodeString(code), 0), email)
            == OtpPage.SendVerification(email, CodeString(code))
  {
    var c := CodeString(code);
    OtpPage.TypingFillsBoxes(OtpPage.EmptySlots, c, 0);
    OtpPage.JoinChars(c);
    var otp := OtpPage.Chars(c);
    assert OtpPage.AllFilled(otp);
    OtpPage.JoinSlotsLength(otp);
  }

  /** Pasting text that contains the mailed code and nothing else in digits
      makes the page post that code. */
  lemma PastedCodeIsPosted(otp: seq<string>, clip: string, code: nat, email: string)
    requires 100000 <= code <= 999999 && email != []
    requires KeepDigits(clip) == CodeString(code)
    ensures OtpPage.SubmitOtp(OtpPage.Paste(otp, clip), email) == OtpPage.SendVerification(email, CodeString(code))
  {
    var p := OtpPage.Paste(otp, clip);
    assert KeepDigits(clip)[..6] == CodeString(code);
    OtpPage.JoinSlotsLength(p);
  }

  /** A verification code works once: after it has verified the account,
      sending it again is refused as an invalid code. */
  lemma CodeIsSingleUse(s: Store, email: Option<string>, code: Option<string>, t1: Time, t2: Time)
    requires Inv(s)
    requires VerifyEmail(s, email, code, t1).reply.Ok?
    ensures VerifyEmail(VerifyEmail(s, email, code, t1).store, email, code, t2).reply == Err(InvalidCode)
  {
    var r := VerifyEmail(s, email, code, t1);
    var i := r.reply.success.user.id;
    var e := BodyEmail(email).value;
    VerifyEmailKeepsInv(s, email, code, t1);
    forall j | 0 <= j < |r.store| ensures !CodeMatches(r.store[j], e, code.value) {
    }
  }

  /** The status check follows the account through sign-up: it reads
      unverified right after registration and verified once the mailed code
      has been accepted, with the registered address and first name. */
  lemma StatusFollowsVerification(s: Store, b: RegisterBody, code: nat, salt: nat, now: Time, t: Time)
    requires 100000 <= code <= 999999
    requires Inv(s) && JustRegistered(s, b, code, salt, now)
    requires t < now + VerificationCodeLifetime
    ensures var s1 := Register(s, b, code, salt, now).store;
            CheckVerificationStatus(s1, b.email)
            == Ok(VerificationStatus(false, BodyEmail(b.email).value, b.firstName.value))
    ensures var s1 := Register(s, b, code, salt, now).store;
            var s2 := VerifyEmail(s1, b.email, Some(CodeString(code)), t).store;
            CheckVerificationStatus(s2, b.email)
            == Ok(VerificationStatus(true, BodyEmail(b.email).value, b.firstName.value))
  {
    var s1 := Register(s, b, code, salt, now).store;
    RegisterKeepsInv(s, b, code, salt, now);
    FindByEmailUnique(s1, BodyEmail(b.email).value, |s|);
    RegisteredCodeVerifiesUntilExpiry(s, b, code, salt, now, t);
    var s2 := VerifyEmail(s1, b.email, Some(CodeString(code)), t).store;
    VerifyEmailKeepsInv(s1, b.email, Some(CodeString(code)), t);
    FindByEmailUnique(s2, BodyEmail(b.email).value, |s|);
  }

  // ------------------------------------------------------------------ login

  /** Login does not tell an unknown address from a wrong password: both get
      the same reply and the same status code. */
  lemma LoginHidesWhichCheckFailed(s: Store, unknown: Option<string>, known: Option<string>,
                                   p1: Option<string>, p2: Option<string>, now: Time)
    requires Inv(s)
    requires BodyEmail(unknown).Some? && Present(p1)
    requires forall j :: 0 <= j < |s| ==> s[j].email != BodyEmail(unknown).value
    requires BodyEmail(known).Some? && Present(p2)
    requires exists j :: 0 <= j < |s| && s[j].email == BodyEmail(known).value && !Matches(p2.value, s[j].password)
    ensures Login(s, unknown, p1, now) == Login(s, known, p2, now) == Err(InvalidCredentials)
    ensures StatusCode(Login(s, unknown, p1, now)) == StatusCode(Login(s, known, p2, now)) == 401
  {
    var j :| 0 <= j < |s| && s[j].email == BodyEmail(known).value && !Matches(p2.value, s[j].password);
    FindByEmailUnique(s, BodyEmail(known).value, j);
    assert FindByEmail(s, BodyEmail(unknown).value).None?;
    assert Login(s, unknown, p1, now) == Err(InvalidCredentials);
    assert Login(s, known, p2, now) == Err(InvalidCredentials);
  }

  /** A token a login issued, presented back in the header and accepted by
      the verifier, opens `GET /check-auth` on the profile the login
      returned. */
  lemma LoginTokenOpensCheckAuth(s: Store, email: Option<string>, password: Option<string>, now: Time,
                                 header: Option<string>, verify: string -> Option<Claims>)
    requires Login(s, email, password, now).Ok?
    requires AuthGate.BearerToken(header).Some?
    requires verify(AuthGate.BearerToken(header).value) == Some(Login(s, email, password, now).success.token)
    ensures AuthGate.CheckAuthRoute(s, header, verify) == Ok(Authenticated(Login(s, email, password, now).success.profile))
  {
  }

  /** Register, then verify with the mailed code before it expires, then log
      in with the chosen password: the login succeeds for the new account. */
  lemma SignUpVerifyLogIn(s: Store, b: RegisterBody, code: nat, salt: nat, now: Time, t1: Time, t2: Time)
    requires 100000 <= code <= 999999
    requires Inv(s) && JustRegistered(s, b, code, salt, now)
    requires t1 < now + VerificationCodeLifetime
    ensures var s1 := Register(s, b, code, salt, now).store;
            var s2 := VerifyEmail(s1, b.email, Some(CodeString(code)), t1).store;
            var r := Login(s2, b.email, b.password, t2);
            r.Ok? && r.success.profile.id == |s| && r.success.token.userId == |s|
  {
    var s1 := Register(s, b, code, salt, now).store;
    RegisteredCodeVerifiesUntilExpiry(s, b, code, salt, now, t1);
    RegisterKeepsInv(s, b, code, salt, now);
    var s2 := VerifyEmail(s1, b.email, Some(CodeString(code)), t1).store;
    VerifyEmailKeepsInv(s1, b.email, Some(CodeString(code)), t1);
    FindByEmailUnique(s2, BodyEmail(b.email).value, |s|);
  }

  // --------------------------------------------------------- password reset

  /** No record holds the fingerprint of `raw`: what a freshly generated
      random token satisfies. */
  predicate Unused(s: Store, raw: string) {
    forall j :: 0 <= j < |s| ==> s[j].passwordResetToken != Some(Fingerprint(raw))
  }

  /** A link sent at `t0` and opened before it expires leads to the account
      it was sent for, and to no other. */
  lemma IssuedLinkIsFound(s: Store, email: Option<string>, raw: string, t0: Time, t1: Time)
    requires Inv(s) && IsRawResetToken(raw) && Unused(s, raw)
    requires ForgotPassword(s, email, raw, true, t0).reply == Ok(ResetLinkSent)
    requires t0 <= t1 < t0 + ResetTokenLifetime
    ensures var s1 := ForgotPassword(s, email, raw, true, t0).store;
            var i := FindByEmail(s, BodyEmail(email).value).value;
            && Inv(s1) && i < |s1| && s1[i].email == BodyEmail(email).value && s1[i].isVerified
            && FindByResetToken(s1, raw, t1) == Some(i)
            && forall j :: 0 <= j < |s1| && j != i ==> s1[j].passwordResetToken != Some(Fingerprint(raw))
  {
    var i := FindByEmail(s, BodyEmail(email).value).value;
    var s1 := ForgotPassword(s, email, raw, true, t0).store;
    ForgotPasswordKeepsInv(s, email, raw, true, t0);
    assert HoldsResetToken(s1[i], raw, t1);
    forall j | 0 <= j < |s1| && j != i ensures s1[j].passwordResetToken != Some(Fingerprint(raw)) {
      assert s1[j] == s[j];
    }
  }

  /** Using the link the reset handler found: the password is replaced, the
      new one logs in, the old one (if different) is refused, and the link
      is dead afterwards. */
  lemma ResetCompletes(s1: Store, i: Id, email: Option<string>, raw: string, t1: Time,
                       oldPassword: string, newPassword: string, salt: nat, t2: Time, t3: Time)
    requires Inv(s1) && i < |s1| && BodyEmail(email) == Some(s1[i].email) && s1[i].isVerified
    requires IsRawResetToken(raw)
    requires FindByResetToken(s1, raw, t1) == Some(i)
    requires forall j :: 0 <= j < |s1| && j != i ==> s1[j].passwordResetToken != Some(Fingerprint(raw))
    requires |newPassword| >= MinPasswordLength
    ensures var s2 := ResetPassword(s1, Some(raw), Some(newPassword), salt, t1).store;
            && ResetPassword(s1, Some(raw), Some(newPassword), salt, t1).reply == Ok(PasswordWasReset)
            && Login(s2, email, Some(newPassword), t2).Ok?
            && (oldPassword != [] && oldPassword != newPassword ==>
                  Login(s2, email, Some(oldPassword), t2) == Err(InvalidCredentials))
            && ResetPassword(s2, Some(raw), Some(newPassword), salt, t3).reply == Err(InvalidResetToken)
  {
    var s2 := ResetPassword(s1, Some(raw), Some(newPassword), salt, t1).store;
    assert s2 == s1[i := ApplyReset(s1[i], newPassword, salt, t1)];
    ResetPasswordKeepsInv(s1, Some(raw), Some(newPassword), salt, t1);
    FindByEmailUnique(s2, s1[i].email, i);
    forall j | 0 <= j < |s2| ensures !HoldsResetToken(s2[j], raw, t3) {
      if j != i { assert s2[j] == s1[j]; }
    }
  }

  /** The whole reset journey: a link sent at `t0` and opened before it
      expires is accepted for the right address, resets the password, after
      which the new password logs in, the old one is refused, and the link
      is dead. */
  lemma ResetJourney(s: Store, email: Option<string>, raw: string, t0: Time, t1: Time,
                     oldPassword: string, newPassword: string, salt: nat, t2: Time, t3: Time)
    requires Inv(s) && IsRawResetToken(raw) && Unused(s, raw)
    requires ForgotPassword(s, email, raw, true, t0).reply == Ok(ResetLinkSent)
    requires t0 <= t1 < t0 + ResetTokenLifetime
    requires |newPassword| >= MinPasswordLength
    ensures var s1 := ForgotPassword(s, email, raw, true, t0).store;
            var s2 := ResetPassword(s1, Some(raw), Some(newPassword), salt, t1).store;
            && ValidateResetToken(s1, Some(raw), t1) == Ok(ResetTokenValid(BodyEmail(email).value))
            && ResetPassword(s1, Some(raw), Some(newPassword), salt, t1).reply == Ok(PasswordWasReset)
            && Login(s2, email, Some(newPassword), t2).Ok?
            && (oldPassword != [] && oldPassword != newPassword ==>
                  Login(s2, email, Some(oldPassword), t2) == Err(InvalidCredentials))
            && ResetPassword(s2, Some(raw), Some(newPassword), salt, t3).reply == Err(InvalidResetToken)
  {
    var i := FindByEmail(s, BodyEmail(email).value).value;
    var s1 := ForgotPassword(s, email, raw, true, t0).store;
    IssuedLinkIsFound(s, email, raw, t0, t1);
    ResetCompletes(s1, i, email, raw, t1, oldPassword, newPassword, salt, t2, t3);
  }

  /** A link is only as good as its token: a token that no record held
      before the request is refused, whatever the request issued. */
  lemma OtherTokensRefused(s: Store, email: Option<string>, raw: string, delivered: bool, t0: Time,
                           other: string, t1: Time)
    requires IsRawResetToken(raw) && other != raw && Unused(s, other)
    ensures ValidateResetToken(ForgotPassword(s, email, raw, delivered, t0).store, Some(other), t1).Err?
  {
    var s1 := ForgotPassword(s, email, raw, delivered, t0).store;
    forall j | 0 <= j < |s1| ensures !HoldsResetToken(s1[j], other, t1) {
      FingerprintInjective(raw, other);
      if s1[j] != s[j] {
        var i := FindByEmail(s, BodyEmail(email).value).value;
        assert j == i;
      }
    }
  }

  /** A failed delivery leaves no usable link behind, but still counts as
      an attempt and still starts the cooldown. */
  lemma FailedDeliveryLeavesNoLink(s: Store, email: Option<string>, raw: string, t0: Time, t1: Time)
    requires Inv(s) && IsRawResetToken(raw) && Unused(s, raw)
    requires ForgotPassword(s, email, raw, false, t0).reply == Err(ResetEmailFailed)
    ensures var s1 := ForgotPassword(s, email, raw, false, t0).store;
            var i := FindByEmail(s, BodyEmail(email).value).value;
            && ValidateResetToken(s1, Some(raw), t1) == Err(InvalidResetToken)
            && s1[i].passwordResetAttempts == s[i].passwordResetAttempts + 1
            && s1[i].lastPasswordResetRequest == Some(t0)
  {
    var s1 := ForgotPassword(s, email, raw, false, t0).store;
    var i := FindByEmail(s, BodyEmail(email).value).value;
    forall j | 0 <= j < |s1| ensures !HoldsResetToken(s1[j], raw, t1) {
      if j != i { assert s1[j] == s[j]; }
    }
  }

  /** The request that uses up the fifth attempt locks the account out of
      the reset flow: the next request after the cooldown is refused. */
  lemma FifthAttemptLocksOut(s: Store, email: Option<string>, raw1: string, d1: bool, t1: Time,
                             raw2: string, d2: bool, t2: Time)
    requires Inv(s) && IsRawResetToken(raw1) && IsRawResetToken(raw2)
    requires BodyEmail(email).Some? && FindByEmail(s, BodyEmail(email).value).Some?
    requires s[FindByEmail(s, BodyEmail(email).value).value].passwordResetAttempts == MaxResetAttempts - 1
    requires ForgotPassword(s, email, raw1, d1, t1).reply in {Ok(ResetLinkSent), Err(ResetEmailFailed)}
    requires t2 - t1 >= ResetCooldown
    ensures var s1 := ForgotPassword(s, email, raw1, d1, t1).store;
            ForgotPassword(s1, email, raw2, d2, t2).reply == Err(TooManyResetAttempts)
  {
    var e := BodyEmail(email).value;
    var i := FindByEmail(s, e).value;
    var s1 := ForgotPassword(s, email, raw1, d1, t1).store;
    assert s1[i].email == e;
    ForgotPasswordKeepsInv(s, email, raw1, d1, t1);
    FindByEmailUnique(s1, e, i);
  }

  /** Changing the password while signed in does not lift that lockout:
      only a completed reset clears the attempt count. */
  lemma ChangePasswordKeepsLockout(s: Store, user: Option<Claims>, currentPassword: Option<string>,
                                   newPassword: Option<string>, salt: nat, now: Time,
                                   email: Option<string>, raw: string, delivered: bool, t: Time)
    requires Inv(s) && IsRawResetToken(raw)
    requires BodyEmail(email).Some? && FindByEmail(s, BodyEmail(email).value).Some?
    requires ForgotPassword(s, email, raw, delivered, t).reply == Err(TooManyResetAttempts)
    ensures var s1 := ChangePassword(s, user, currentPassword, newPassword, salt, now).store;
            ForgotPassword(s1, email, raw, delivered, t).reply == Err(TooManyResetAttempts)
  {
    var e := BodyEmail(email).value;
    var i := FindByEmail(s, e).value;
    var s1 := ChangePassword(s, user, currentPassword, newPassword, salt, now).store;
    ChangePasswordKeepsInv(s, user, currentPassword, newPassword, salt, now);
    assert s1[i].email == e;
    FindByEmailUnique(s1, e, i);
  }

  /** Changing to the password already in use is refused and changes
      nothing. */
  lemma SamePasswordRefused(s: Store, c: Claims, password: string, salt: nat, now: Time)
    requires c.userId < |s| && Matches(password, s[c.userId].password)
    requires |password| >= MinPasswordLength
    ensures ChangePassword(s, Some(c), Some(password), Some(password), salt, now) == Step(Err(SamePassword), s)
  {
  }

  /** The wait a too-early resend reports is between 1 and 60 seconds once
      a previous request is on record and the clock has not gone back. */
  lemma ResendWaitBounds(s: Store, email: Option<string>, code: nat, now: Time)
    requires 100000 <= code <= 999999
    requires BodyEmail(email).Some? && FindByEmail(s, BodyEmail(email).value).Some?
    requires var a := s[FindByEmail(s, BodyEmail(email).value).value];
             a.lastVerificationRequest.Some? && a.lastVerificationRequest.value <= now
    requires ResendVerificationCode(s, email, code, now).reply.Err?
    requires ResendVerificationCode(s, email, code, now).reply.failure.ResendTooSoon?
    ensures 1 <= ResendVerificationCode(s, email, code, now).reply.failure.waitSeconds <= 60
  {
    var w := ResendVerificationCode(s, email, code, now).reply.failure.waitSeconds;
    assert (w - 1) * 1000 < ResendCooldown;
  }

  /** Whatever the reset page sends passes the handler's length check, so
      the handler's answer depends only on the token. */
  lemma ResetPageSendsAcceptableRequest(s: Store, token: string, form: ResetPasswordPage.ResetForm, salt: nat, now: Time)
    requires ResetPasswordPage.SubmitReset(token, form).SendReset?
    requires token != []
    ensures var r := ResetPasswordPage.SubmitReset(token, form);
            var step := ResetPassword(s, Some(r.token), Some(r.password), salt, now);
            && step.reply != Err(TokenAndPasswordRequired) && step.reply != Err(PasswordTooShort)
            && (step.reply.Ok? <==> ValidateResetToken(s, Some(token), now).Ok?)
  {
  }

  /** The reset page shows its form exactly for a link the server would
      accept, with the address the link was issued for. */
  lemma ResetPageShowsFormForLiveLink(s: Store, token: string, now: Time)
    ensures var v := ResetPasswordPage.CheckLink(token, ValidateResetToken(s, Some(token), now));
            && (v.LinkValid? <==> token != [] && exists j :: 0 <= j < |s| && HoldsResetToken(s[j], token, now))
            && (v.LinkValid? ==> exists j :: 0 <= j < |s| && HoldsResetToken(s[j], token, now) && v.email == s[j].email)
  {
  }
}

=== FILE: otp_page.dfy ===
/** The one-time-code entry page, `frontend/src/AuthPages/Otp.jsx`: six
    one-character boxes, paste handling, the submit guard, the resend
    countdown and its `m:ss` rendering. */
module OtpPage {
  import opened Text

  const CodeLength := 6
  const ResendWaitSeconds := 60

  const EmptySlots: seq<string> := ["", "", "", "", "", ""]

  /** What the boxes can hold: six entries, each empty or one digit
      (`maxLength="1"` on every box, digits only). */
  predicate WellFormed(otp: seq<string>) {
    |otp| == CodeLength && forall k :: 0 <= k < |otp| ==> |otp[k]| <= 1 && AllDigits(otp[k])
  }

  /** `otp.join('')`. */
  function JoinSlots(otp: seq<string>): string {
    if otp == [] then [] else otp[0] + JoinSlots(otp[1..])
  }

  /** Every box filled. */
  predicate AllFilled(otp: seq<string>) {
    forall k :: 0 <= k < |otp| ==> |otp[k]| == 1
  }

  /** Joining boxes of at most one character gives a string no longer than
      the number of boxes, as long exactly when every box is filled, and
      made of digits when every box is. */
  lemma {:induction false} JoinSlotsLength(otp: seq<string>)
    requires forall k :: 0 <= k < |otp| ==> |otp[k]| <= 1 && AllDigits(otp[k])
    ensures |JoinSlots(otp)| <= |otp|
    ensures |JoinSlots(otp)| == |otp| <==> AllFilled(otp)
    ensures AllDigits(JoinSlots(otp))
  {
    if otp != [] {
      JoinSlotsLength(otp[1..]);
      var rest := JoinSlots(otp[1..]);
      assert JoinSlots(otp) == otp[0] + rest;
      if AllFilled(otp[1..]) && |otp[0]| == 1 {
        forall k | 0 <= k < |otp| ensures |otp[k]| == 1 {
          if k > 0 { assert otp[k] == otp[1..][k - 1]; }
        }
      }
      if AllFilled(otp) {
        forall k | 0 <= k < |otp[1..]| ensures |otp[1..][k]| == 1 {
          assert otp[1..][k] == otp[k + 1];
        }
      }
      forall k | 0 <= k < |JoinSlots(otp)| ensures IsDigit(JoinSlots(otp)[k]) {
        if k >= |otp[0]| { assert JoinSlots(otp)[k] == rest[k - |otp[0]|]; }
      }
    }
  }

  /** `handleChange(index, value)`: a value that is not all digits
      (`/^\d*$/`) is ignored; otherwise it replaces box `index`. */
  function TypeInSlot(otp: seq<string>, index: nat, value: string): (r: seq<string>)
    requires |otp| == CodeLength && index < CodeLength
    ensures |r| == CodeLength
    ensures forall k :: 0 <= k < CodeLength && k != index ==> r[k] == otp[k]
    ensures r[index] == value <==> AllDigits(value) || value == otp[index]
    ensures !AllDigits(value) ==> r == otp
    ensures WellFormed(otp) && |value| <= 1 ==> WellFormed(r)
  {
    if AllDigits(value) then otp[index := value] else otp
  }

  /** Typing `c[k]`, `c[k + 1]`, ... into boxes `k`, `k + 1`, ... in turn,
      each as its own `handleChange` event. */
  function TypeFrom(otp: seq<string>, c: string, k: nat): seq<string>
    requires |otp| == CodeLength && |c| == CodeLength && k <= CodeLength
    decreases CodeLength - k
  {
    if k == CodeLength then otp else TypeFrom(TypeInSlot(otp, k, [c[k]]), c, k + 1)
  }

  /** Typing the digits of a six-digit code one box at a time, from any
      boxes, leaves the boxes holding exactly that code's digits. */
  lemma {:induction false} TypingFillsBoxes(otp: seq<string>, c: string, k: nat)
    requires |otp| == CodeLength && |c| == CodeLength && k <= CodeLength && AllDigits(c)
    requires forall j :: 0 <= j < k ==> otp[j] == [c[j]]
    ensures TypeFrom(otp, c, k) == Chars(c)
    decreases CodeLength - k
  {
    if k < CodeLength {
      var next := TypeInSlot(otp, k, [c[k]]);
      assert AllDigits([c[k]]);
      assert next[k] == [c[k]];
      TypingFillsBoxes(next, c, k + 1);
    } else {
      assert TypeFrom(otp, c, k) == otp;
    }
  }

  /** The boxes holding the characters of `s`, one each. */
  function Chars(s: string): (r: seq<string>)
    ensures |r| == |s|
    ensures forall k :: 0 <= k < |s| ==> r[k] == [s[k]]
  {
    seq(|s|, k requires 0 <= k < |s| => [s[k]])
  }

  /** Joining the one-character boxes gives the string back. */
  lemma {:induction false} JoinChars(s: string)
    ensures JoinSlots(Chars(s)) == s
  {
    if s != [] {
      assert Chars(s)[1..] == Chars(s[1..]);
      JoinChars(s[1..]);
      assert s == [s[0]] + s[1..];
    }
  }

  /** `handlePaste`: the clipboard text, trimmed, stripped of non-digits and
      cut to six; the boxes are replaced only when six digits remain. */
  function Paste(otp: seq<string>, clip: string): (r: seq<string>)
    ensures |KeepDigits(clip)| < CodeLength ==> r == otp
    ensures |KeepDigits(clip)| >= CodeLength ==>
              WellFormed(r) && AllFilled(r) && JoinSlots(r) == KeepDigits(clip)[..CodeLength]
  {
    KeepDigitsIgnoresTrim(clip);
    var digits := KeepDigits(Trim(clip));
    var first := if |digits| <= CodeLength then digits else digits[..CodeLength];
    if |first| == CodeLength then
      JoinChars(first);
      Chars(first)
    else otp
  }

  /** What pressing "verify" does. */
  datatype OtpSubmit =
    | NeedSixDigits
    | EmailMissing
    | SendVerification(email: string, verificationCode: string)

  /** `handleSubmit`: the joined code must be six characters long and the
      address known; the request carries both unchanged. */
  function SubmitOtp(otp: seq<string>, email: string): (r: OtpSubmit)
    requires WellFormed(otp)
    ensures r == NeedSixDigits <==> !AllFilled(otp)
    ensures r == EmailMissing <==> AllFilled(otp) && email == []
    ensures r.SendVerification? ==>
              && r.email == email && email != []
              && |r.verificationCode| == CodeLength && AllDigits(r.verificationCode)
              && forall k :: 0 <= k < CodeLength ==> r.verificationCode[k] == otp[k][0]
  {
    JoinSlotsLength(otp);
    var code := JoinSlots(otp);
    if |code| != CodeLength then NeedSixDigits
    else if email == [] then EmailMissing
    else
      JoinFilledSlots(otp);
      SendVerification(email, code)
  }

  /** With every box filled, character `k` of the joined code is box `k`. */
  lemma {:induction false} JoinFilledSlots(otp: seq<string>)
    requires AllFilled(otp)
    ensures |JoinSlots(otp)| == |otp|
    ensures forall k :: 0 <= k < |otp| ==> JoinSlots(otp)[k] == otp[k][0]
  {
    if otp != [] {
      assert AllFilled(otp[1..]) by {
        forall k | 0 <= k < |otp[1..]| ensures |otp[1..][k]| == 1 {
          assert otp[1..][k] == otp[k + 1];
        }
      }
      JoinFilledSlots(otp[1..]);
      forall k | 0 <= k < |otp| ensures JoinSlots(otp)[k] == otp[k][0] {
        if k > 0 { assert otp[k] == otp[1..][k - 1]; }
      }
    }
  }

  /** The submit button: disabled while verifying or until the joined code
      has six characters. */
  function SubmitEnabled(verifying: bool, otp: seq<string>): (enabled: bool)
    requires WellFormed(otp)
    ensures enabled <==> !verifying && AllFilled(otp)
  {
    JoinSlotsLength(otp);
    !verifying && |JoinSlots(otp)| == CodeLength
  }

  /** The page's countdown state. */
  datatype OtpState = OtpState(otp: seq<string>, timer: nat, resendDisabled: bool)

  const Initial := OtpState(EmptySlots, ResendWaitSeconds, true)

  /** One run of the countdown effect: while the resend link is disabled the
      timer drops by one each second; at zero the link is enabled. */
  function Tick(st: OtpState): (r: OtpState)
    ensures r.otp == st.otp
    ensures r.timer <= st.timer
    ensures r.resendDisabled ==> st.resendDisabled
    ensures st.resendDisabled && st.timer > 0 ==> r.timer == st.timer - 1 && r.resendDisabled
    ensures st.timer == 0 ==> !r.resendDisabled && r.timer == 0
  {
    if st.timer > 0 && st.resendDisabled then st.(timer := st.timer - 1)
    else if st.timer == 0 then st.(resendDisabled := false)
    else st
  }

  function Ticks(st: OtpState, n: nat): OtpState
    decreases n
  {
    if n == 0 then st else Ticks(Tick(st), n - 1)
  }

  /** From a disabled link with `t` seconds left, the link stays disabled
      for `t` ticks and is enabled by the next one. */
  lemma {:induction false} CountdownEnablesResend(st: OtpState, n: nat)
    requires st.resendDisabled
    ensures n <= st.timer ==> Ticks(st, n).resendDisabled && Ticks(st, n).timer == st.timer - n
    ensures n > st.timer ==> !Ticks(st, n).resendDisabled
    decreases n
  {
    if n > 0 {
      if st.timer == 0 {
        assert !Tick(st).resendDisabled;
        StaysEnabled(Tick(st), n - 1);
      } else {
        CountdownEnablesResend(Tick(st), n - 1);
      }
    }
  }

  lemma {:induction false} StaysEnabled(st: OtpState, n: nat)
    requires !st.resendDisabled
    ensures !Ticks(st, n).resendDisabled
    decreases n
  {
    if n > 0 {
      StaysEnabled(Tick(st), n - 1);
    }
  }

  /** `handleResendOTP`: with no address nothing happens; when the server
      accepts, the countdown restarts at 60 and the boxes are cleared; when
      it refuses, the page stays as it was. */
  function Resend(st: OtpState, email: string, accepted: bool): (r: OtpState)
    ensures email == [] || !accepted ==> r == st
    ensures email != [] && accepted ==>
              r.timer == ResendWaitSeconds && r.resendDisabled && WellFormed(r.otp) && JoinSlots(r.otp) == []
  {
    if email == [] || !accepted then st
    else
      assert JoinSlots(EmptySlots) == [] by {
        assert EmptySlots[1..] == ["", "", "", "", ""];
        assert EmptySlots[1..][1..] == ["", "", "", ""];
        assert EmptySlots[1..][1..][1..] == ["", "", ""];
        assert EmptySlots[1..][1..][1..][1..] == ["", ""];
        assert EmptySlots[1..][1..][1..][1..][1..] == [""];
      }
      OtpState(EmptySlots, ResendWaitSeconds, true)
  }

  /** After an accepted resend the link stays disabled for the full 60
      ticks of the countdown and is enabled by the 61st. */
  lemma ResendRestartsCountdown(st: OtpState, email: string, n: nat)
    requires email != []
    ensures n <= ResendWaitSeconds ==> Ticks(Resend(st, email, true), n).resendDisabled
    ensures n > ResendWaitSeconds ==> !Ticks(Resend(st, email, true), n).resendDisabled
  {
    CountdownEnablesResend(Resend(st, email, true), n);
  }

  /** The seconds field, padded to two characters. */
  function TwoDigits(n: nat): (s: string)
    requires n < 60
    ensures |s| == 2 && AllDigits(s) && ParseDecimal(s) == n
  {
    ParseDecimalOfDecimal(n);
    if n < 10 then
      ParseDecimalLeadingZero(Decimal(n));
      "0" + Decimal(n)
    else
      assert Pow10(1) == 10 && Pow10(2) == 100;
      DecimalLength(n, 2);
      Decimal(n)
  }

  /** `formatTime(seconds)`: minutes, a colon, two-digit seconds. */
  function FormatTime(seconds: nat): (r: string)
    ensures |r| >= 4 && r[|r| - 3] == ':'
    ensures AllDigits(r[..|r| - 3]) && AllDigits(r[|r| - 2..])
    ensures r[0] == '0' ==> seconds < 60
  {
    var m := Decimal(seconds / 60);
    assert m[0] == '0' ==> seconds / 60 == 0 by {
      if seconds / 60 < 10 { assert m == [DigitChar(seconds / 60)]; }
    }
    m + ":" + TwoDigits(seconds % 60)
  }

  /** Reads an `m:ss` rendering back into seconds. */
  function ParseTime(s: string): (r: Option<nat>)
    ensures r.Some? ==> ':' in s
  {
    var parts := Split(s, ':');
    if |parts| != 2 || parts[0] == [] || !AllDigits(parts[0]) || |parts[1]| != 2 || !AllDigits(parts[1]) then None
    else if ParseDecimal(parts[1]) >= 60 then None
    else
      assert s == parts[0] + [':'] + parts[1] by { assert parts[1..] == [parts[1]]; }
      assert s[|parts[0]|] == ':';
      Some(ParseDecimal(parts[0]) * 60 + ParseDecimal(parts[1]))
  }

  /** The rendering loses nothing: reading it back gives the seconds. */
  lemma FormatTimeRoundTrip(seconds: nat)
    ensures ParseTime(FormatTime(seconds)) == Some(seconds)
  {
    var m := Decimal(seconds / 60);
    var ss := TwoDigits(seconds % 60);
    var parts := [m, ss];
    assert ':' !in m by { assert forall k :: 0 <= k < |m| ==> IsDigit(m[k]); }
    assert ':' !in ss by { assert forall k :: 0 <= k < |ss| ==> IsDigit(ss[k]); }
    assert Join(parts, ':') == m + [':'] + ss by { assert parts[1..] == [ss]; }
    assert FormatTime(seconds) == m + [':'] + ss;
    SplitJoin(parts, ':');
    ParseDecimalOfDecimal(seconds / 60);
  }
}

=== FILE: password_strength.dfy ===
/** The password-strength meter shared by the sign-up page
    (`frontend/src/AuthPages/Signup.jsx`) and the reset page
    (`frontend/src/AuthPages/ResetPassword.jsx`): both compute the same
    score and map it to the same label and colour. */
module PasswordStrength {
  import opened Text

  predicate IsUpper(c: char) { 'A' <= c <= 'Z' }

  predicate IsAlphanumeric(c: char) {
    IsUpper(c) || ('a' <= c <= 'z') || IsDigit(c)
  }

  /** The four criteria the meter tests. */
  datatype Criterion = MinLength | Uppercase | Digit | Symbol

  /** Whether `password` meets criterion `c`: at least six characters, or
      one match of `/[A-Z]/`, `/[0-9]/` or `/[^A-Za-z0-9]/`. */
  predicate Holds(c: Criterion, password: string) {
    match c
    case MinLength => |password| >= 6
    case Uppercase => exists k :: 0 <= k < |password| && IsUpper(password[k])
    case Digit => exists k :: 0 <= k < |password| && IsDigit(password[k])
    case Symbol => exists k :: 0 <= k < |password| && !IsAlphanumeric(password[k])
  }

  const AllCriteria: seq<Criterion> := [MinLength, Uppercase, Digit, Symbol]

  /** How many of `cs` the password meets. */
  function CountMet(cs: seq<Criterion>, password: string): (n: nat)
    ensures n <= |cs|
  {
    if cs == [] then 0 else (if Holds(cs[0], password) then 1 else 0) + CountMet(cs[1..], password)
  }

  /** `calculateStrength`: 25 points per criterion. */
  function Strength(password: string): (score: nat)
    ensures score % 25 == 0 && score <= 100
  {
    (if Holds(MinLength, password) then 25 else 0)
    + (if Holds(Uppercase, password) then 25 else 0)
    + (if Holds(Digit, password) then 25 else 0)
    + (if Holds(Symbol, password) then 25 else 0)
  }

  /** The score is 25 times the number of criteria met. */
  lemma StrengthCountsCriteria(password: string)
    ensures Strength(password) == 25 * CountMet(AllCriteria, password)
  {
    var one := if Holds(Symbol, password) then 1 else 0;
    assert [Symbol][1..] == [];
    assert CountMet([Symbol], password) == one;
    assert [Digit, Symbol][1..] == [Symbol];
    assert CountMet([Digit, Symbol], password) == (if Holds(Digit, password) then 1 else 0) + one;
    assert [Uppercase, Digit, Symbol][1..] == [Digit, Symbol];
    assert AllCriteria[1..] == [Uppercase, Digit, Symbol];
  }

  /** Lengthening a password never lowers its score. */
  lemma {:induction false} StrengthMonotone(password: string, more: string)
    ensures Strength(password) <= Strength(password + more)
  {
    var p := password + more;
    if Holds(Uppercase, password) {
      var k :| 0 <= k < |password| && IsUpper(password[k]);
      assert p[k] == password[k];
    }
    if Holds(Digit, password) {
      var k :| 0 <= k < |password| && IsDigit(password[k]);
      assert p[k] == password[k];
    }
    if Holds(Symbol, password) {
      var k :| 0 <= k < |password| && !IsAlphanumeric(password[k]);
      assert p[k] == password[k];
    }
  }

  /** `getPasswordStrengthText`. */
  function StrengthText(score: int): string {
    if score == 0 then ""
    else if score <= 25 then "Very Weak"
    else if score <= 50 then "Weak"
    else if score <= 75 then "Good"
    else "Strong"
  }

  /** `getPasswordStrengthColor`. */
  function StrengthColor(score: int): string {
    if score == 0 then "bg-gray-200"
    else if score <= 25 then "bg-red-500"
    else if score <= 50 then "bg-orange-500"
    else if score <= 75 then "bg-yellow-500"
    else "bg-green-500"
  }

  /** Label and colour cut the scores at the same thresholds: two scores
      share a label exactly when they share a colour. */
  lemma TextAndColorAgree(x: int, y: int)
    ensures StrengthText(x) == StrengthText(y) <==> StrengthColor(x) == StrengthColor(y)
  {
  }

  /** The label names the number of criteria met: none, one, two, three or
      all four. */
  lemma StrengthTextByCriteria(password: string)
    ensures StrengthText(Strength(password)) == ["", "Very Weak", "Weak", "Good", "Strong"][CountMet(AllCriteria, password)]
  {
    StrengthCountsCriteria(password);
  }
}

=== FILE: reset_password_page.dfy ===
/** The page behind a reset link, `frontend/src/AuthPages/ResetPassword.jsx`:
    the link check on load, the form's checks before it posts the new
    password, and the submit button's enablement. */
module ResetPasswordPage {
  import opened Text
  import opened PasswordStrength
  import AuthController

  datatype ResetForm = ResetForm(password: string, confirmPassword: string)

  /** What the page shows once the link has been checked. */
  datatype LinkView = LinkInvalid | LinkValid(email: string)

  /** The check on load: with no token in the path nothing is asked; a
      successful answer shows the form, with the e-mail the server named or
      an empty one; anything else shows the "invalid link" notice. */
  function CheckLink(token: string, reply: AuthController.Reply): (v: LinkView)
    ensures token == [] ==> v == LinkInvalid
    ensures v.LinkValid? <==> token != [] && reply.Ok?
    ensures v.LinkValid? && reply.success.ResetTokenValid? ==> v.email == reply.success.email
  {
    if token == [] || reply.Err? then LinkInvalid
    else match reply.success
      case ResetTokenValid(email) => LinkValid(email)
      case _ => LinkValid([])
  }

  /** What pressing "reset password" does. */
  datatype ResetSubmit =
    | TooShortNotice
    | MismatchNotice
    | SendReset(token: string, password: string, weakWarning: bool)

  const MinLengthOnPage := 6
  const WeakBelow := 50

  /** `handleSubmit`: the length check comes before the match check; a weak
      password only draws a warning and is sent anyway. */
  function SubmitReset(token: string, form: ResetForm): (r: ResetSubmit)
    ensures r == TooShortNotice <==> |form.password| < MinLengthOnPage
    ensures r == MismatchNotice <==> |form.password| >= MinLengthOnPage && form.password != form.confirmPassword
    ensures r.SendReset? ==>
              && r.token == token && r.password == form.password && r.password == form.confirmPassword
              && |r.password| >= MinLengthOnPage
              && (r.weakWarning <==> !Holds(Uppercase, r.password) && !Holds(Digit, r.password) && !Holds(Symbol, r.password))
  {
    if |form.password| < MinLengthOnPage then TooShortNotice
    else if form.password != form.confirmPassword then MismatchNotice
    else SendReset(token, form.password, Strength(form.password) < WeakBelow)
  }

  /** The weak-password warning fires exactly when the meter shows
      "Very Weak"; a password the meter calls "Weak" (score 50) is sent
      without it. */
  lemma WeakWarningMatchesLabel(token: string, form: ResetForm)
    requires SubmitReset(token, form).SendReset?
    ensures SubmitReset(token, form).weakWarning <==>
              StrengthText(Strength(form.password)) == "Very Weak"
  {
    StrengthCountsCriteria(form.password);
    assert Holds(MinLength, form.password);
  }

  /** The button is disabled while a request is out or either field is
      empty. */
  function SubmitButtonEnabled(loading: bool, form: ResetForm): (enabled: bool)
    ensures enabled ==> !loading
    ensures form.password == [] || form.confirmPassword == [] ==> !enabled
    ensures !loading && form.password != [] && form.confirmPassword != [] ==> enabled
    ensures !loading && !enabled ==> forall token :: !SubmitReset(token, form).SendReset?
  {
    !loading && form.password != [] && form.confirmPassword != []
  }

  /** The other direction: every form the page would send has its button
      enabled once no request is out, so the button never blocks a valid
      submission. */
  lemma SendableFormEnablesButton(token: string, form: ResetForm)
    requires SubmitReset(token, form).SendReset?
    ensures SubmitButtonEnabled(false, form)
    ensures SubmitButtonEnabled(true, form) == false
  {
    assert |form.password| >= MinLengthOnPage;
  }
}

=== FILE: signup_page.dfy ===
/** The validation and submission logic of
    `frontend/src/AuthPages/Signup.jsx`. The two calendar comparisons on the
    date of birth (at least 13 years old, at most 100) are taken as an input
    verdict. */
module SignupPage {
  import opened Text
  import AuthController

  datatype SignupForm = SignupForm(
    firstName: string,
    lastName: string,
    dob: string,
    email: string,
    password: string,
    confirmPassword: string)

  /** The outcome of `dobDate > maxDate` and `dobDate < minDate`, in that
      order; a date that does not parse compares false both times. */
  datatype DobCheck = DobInRange | DobTooRecent | DobTooOld

  datatype SignupField = FirstNameField | LastNameField | EmailField | DobField | PasswordField | ConfirmField

  datatype SignupError =
    | FirstNameBlank | LastNameBlank
    | EmailBlank | EmailMalformed
    | DobMissing | DobUnderage | DobImplausible
    | PasswordMissing | PasswordShort
    | ConfirmMissing | ConfirmMismatch

  /** What `/^[^\s@]+@[^\s@]+\.[^\s@]+$/` accepts, stated by positions: no
      whitespace, a single `@` with something before it, and a `.` with
      something on each side somewhere after it. */
  ghost predicate EmailShaped(s: string) {
    && NoSpace(s)
    && exists at, dot ::
         && 0 < at && at + 1 < dot && dot + 1 < |s|
         && s[at] == '@' && s[dot] == '.'
         && forall k :: 0 <= k < |s| && s[k] == '@' ==> k == at
  }

  /** The regular expression as the page runs it. */
  predicate MatchesEmailPattern(s: string) {
    && NoSpace(s)
    && '@' in s
    && var at := IndexOf(s, '@');
    && 0 < at && at + 2 < |s|
    && '@' !in s[at + 1..]
    && '.' in s[at + 2..|s| - 1]
  }

  /** The matcher accepts exactly the addresses of the stated shape. */
  lemma MatchesEmailPatternMeaning(s: string)
    ensures MatchesEmailPattern(s) <==> EmailShaped(s)
  {
    if MatchesEmailPattern(s) {
      var at := IndexOf(s, '@');
      var tail := s[at + 2..|s| - 1];
      var dot := at + 2 + IndexOf(tail, '.');
      assert s[dot] == tail[dot - (at + 2)];
      forall k | at < k < |s| ensures s[k] != '@' {
        assert s[k] == s[at + 1..][k - (at + 1)];
      }
    }
    if EmailShaped(s) {
      var at, dot :| && 0 < at && at + 1 < dot && dot + 1 < |s|
                     && s[at] == '@' && s[dot] == '.'
                     && forall k :: 0 <= k < |s| && s[k] == '@' ==> k == at;
      assert '@' in s by { assert s[at] == '@'; }
      var i := IndexOf(s, '@');
      assert i == at;
      assert '@' !in s[at + 1..] by {
        forall k | at + 1 <= k < |s| ensures s[k] != '@' {
        }
      }
      assert s[at + 2..|s| - 1][dot - (at + 2)] == '.';
    }
  }

  /** The message `validateForm` puts against one field, if any. */
  function FieldError(f: SignupForm, dob: DobCheck, field: SignupField): (e: Option<SignupError>)
    ensures field == FirstNameField ==> (e.Some? <==> AllSpace(f.firstName)) && (e.Some? ==> e.value == FirstNameBlank)
    ensures field == LastNameField ==> (e.Some? <==> AllSpace(f.lastName)) && (e.Some? ==> e.value == LastNameBlank)
    ensures field == EmailField ==> (e.None? <==> !AllSpace(f.email) && EmailShaped(f.email))
    ensures field == EmailField && e.Some? ==> e.value == (if AllSpace(f.email) then EmailBlank else EmailMalformed)
    ensures field == DobField ==> (e.None? <==> f.dob != [] && dob.DobInRange?)
    ensures field == DobField && e.Some? ==>
              e.value == (if f.dob == [] then DobMissing else if dob.DobTooRecent? then DobUnderage else DobImplausible)
    ensures field == PasswordField ==> (e.None? <==> |f.password| >= 6)
    ensures field == PasswordField && e.Some? ==> e.value == (if f.password == [] then PasswordMissing else PasswordShort)
    ensures field == ConfirmField ==> (e.None? <==> f.confirmPassword != [] && f.confirmPassword == f.password)
    ensures field == ConfirmField && e.Some? ==>
              e.value == (if f.confirmPassword == [] then ConfirmMissing else ConfirmMismatch)
  {
    match field
    case FirstNameField =>
      TrimEmptyIffAllSpace(f.firstName);
      if Trim(f.firstName) == [] then Some(FirstNameBlank) else None
    case LastNameField =>
      TrimEmptyIffAllSpace(f.lastName);
      if Trim(f.lastName) == [] then Some(LastNameBlank) else None
    case EmailField =>
      TrimEmptyIffAllSpace(f.email);
      MatchesEmailPatternMeaning(f.email);
      if Trim(f.email) == [] then Some(EmailBlank)
      else if !MatchesEmailPattern(f.email) then Some(EmailMalformed)
      else None
    case DobField =>
      if f.dob == [] then Some(DobMissing)
      else if dob.DobTooRecent? then Some(DobUnderage)
      else if dob.DobTooOld? then Some(DobImplausible)
      else None
    case PasswordField =>
      if f.password == [] then Some(PasswordMissing)
      else if |f.password| < 6 then Some(PasswordShort)
      else None
    case ConfirmField =>
      if f.confirmPassword == [] then Some(ConfirmMissing)
      else if f.password != f.confirmPassword then Some(ConfirmMismatch)
      else None
  }

  const AllFields: set<SignupField> :=
    {FirstNameField, LastNameField, EmailField, DobField, PasswordField, ConfirmField}

  lemma AllFieldsListed()
    ensures forall field: SignupField :: field in AllFields
  {
    forall field: SignupField ensures field in AllFields {
      match field
      case FirstNameField =>
      case LastNameField =>
      case EmailField =>
      case DobField =>
      case PasswordField =>
      case ConfirmField =>
    }
  }

  /** `validateForm`: one entry per field that failed its check. */
  function ValidateSignup(f: SignupForm, dob: DobCheck): (errors: map<SignupField, SignupError>)
    ensures forall field :: field in errors <==> FieldError(f, dob, field).Some?
    ensures forall field :: field in errors ==> errors[field] == FieldError(f, dob, field).value
  {
    AllFieldsListed();
    map field | field in AllFields && FieldError(f, dob, field).Some? :: FieldError(f, dob, field).value
  }

  /** What pressing "sign up" does. */
  datatype SignupSubmit = ShowErrors(errors: map<SignupField, SignupError>) | SendRegistration(body: AuthController.RegisterBody)

  /** `handleSubmit`: the request goes out only when no field has an
      error; it carries the trimmed e-mail and no password confirmation. */
  function SubmitSignup(f: SignupForm, dob: DobCheck): (r: SignupSubmit)
    ensures r.ShowErrors? <==> ValidateSignup(f, dob) != map[]
    ensures r.ShowErrors? ==> r.errors == ValidateSignup(f, dob)
    ensures r.SendRegistration? ==>
              && r.body.firstName == Some(f.firstName) && r.body.lastName == Some(f.lastName)
              && r.body.email == Some(Trim(f.email)) && r.body.password == Some(f.password)
              && r.body.dob == Some(f.dob)
              && !AllSpace(f.firstName) && !AllSpace(f.lastName) && EmailShaped(f.email)
              && |f.password| >= 6 && f.password == f.confirmPassword && f.dob != []
  {
    var errors := ValidateSignup(f, dob);
    if errors != map[] then ShowErrors(errors)
    else
      assert FieldError(f, dob, FirstNameField).None? && FieldError(f, dob, LastNameField).None?;
      assert FieldError(f, dob, EmailField).None? && FieldError(f, dob, DobField).None?;
      assert FieldError(f, dob, PasswordField).None? && FieldError(f, dob, ConfirmField).None?;
      SendRegistration(AuthController.RegisterBody(Some(f.firstName), Some(f.lastName), Some(Trim(f.email)),
                                                   Some(f.password), Some(f.dob)))
  }
}

=== FILE: text.dfy ===
/** String helpers shared by the server and the client pages: JavaScript's
    whitespace class (used both by `String.prototype.trim` and by the regular
    expression class `\s`), trimming, decimal digits, `split` on a single
    character, and decimal rendering/parsing of natural numbers. */
module Text {

  datatype Option<+T> = None | Some(value: T)

  /** JavaScript's WhiteSpace and LineTerminator characters: the set that
      `trim()` strips and that `\s` matches. */
  predicate IsSpace(c: char) {
    || c == ' ' || c == '\t' || c == '\n' || c == '\r'
    || c == '\U{000B}' || c == '\U{000C}' || c == '\U{00A0}' || c == '\U{1680}'
    || ('\U{2000}' <= c <= '\U{200A}')
    || c == '\U{2028}' || c == '\U{2029}' || c == '\U{202F}' || c == '\U{205F}'
    || c == '\U{3000}' || c == '\U{FEFF}'
  }

  predicate AllSpace(s: string) {
    forall k :: 0 <= k < |s| ==> IsSpace(s[k])
  }

  predicate NoSpace(s: string) {
    forall k :: 0 <= k < |s| ==> !IsSpace(s[k])
  }

  /** The first index at or after `from` that is not whitespace. */
  function SkipSpaces(s: string, from: nat): (n: nat)
    requires from <= |s|
    ensures from <= n <= |s|
    ensures forall k :: from <= k < n ==> IsSpace(s[k])
    ensures n == |s| || !IsSpace(s[n])
    decreases |s| - from
  {
    if from < |s| && IsSpace(s[from]) then SkipSpaces(s, from + 1) else from
  }

  /** The end of `s[lo..hi]` once trailing whitespace is dropped. */
  function SkipSpacesBack(s: string, lo: nat, hi: nat): (e: nat)
    requires lo <= hi <= |s|
    ensures lo <= e <= hi
    ensures forall k :: e <= k < hi ==> IsSpace(s[k])
    ensures e == lo || !IsSpace(s[e - 1])
    decreases hi
  {
    if lo < hi && IsSpace(s[hi - 1]) then SkipSpacesBack(s, lo, hi - 1) else hi
  }

  /** Where `trim()` cuts `s`: everything before the first bound and from
      the second bound on is whitespace. */
  function TrimBounds(s: string): (b: (nat, nat))
    ensures b.0 <= b.1 <= |s|
    ensures forall k :: 0 <= k < b.0 ==> IsSpace(s[k])
    ensures forall k :: b.1 <= k < |s| ==> IsSpace(s[k])
    ensures b.0 < b.1 ==> !IsSpace(s[b.0]) && !IsSpace(s[b.1 - 1])
    ensures b.0 == b.1 ==> AllSpace(s)
  {
    var i := SkipSpaces(s, 0);
    (i, SkipSpacesBack(s, i, |s|))
  }

  /** `String.prototype.trim`. */
  function Trim(s: string): (r: string)
    ensures |r| <= |s|
    ensures r == [] || (!IsSpace(r[0]) && !IsSpace(r[|r| - 1]))
    ensures exists i, j :: 0 <= i <= j <= |s| && r == s[i..j] && AllSpace(s[..i]) && AllSpace(s[j..])
  {
    var b := TrimBounds(s);
    assert AllSpace(s[..b.0]) by {
      forall k | 0 <= k < b.0 ensures IsSpace(s[..b.0][k]) { assert s[..b.0][k] == s[k]; }
    }
    assert AllSpace(s[b.1..]) by {
      forall k | 0 <= k < |s| - b.1 ensures IsSpace(s[b.1..][k]) { assert s[b.1..][k] == s[b.1 + k]; }
    }
    s[b.0..b.1]
  }

  /** Trimming twice is trimming once. */
  lemma TrimIdempotent(s: string)
    ensures Trim(Trim(s)) == Trim(s)
  {
    var r := Trim(s);
    if r != [] {
      assert SkipSpaces(r, 0) == 0;
      assert SkipSpacesBack(r, 0, |r|) == |r|;
      assert r[0..|r|] == r;
    }
  }

  /** A string trims to nothing exactly when it is all whitespace. */
  lemma TrimEmptyIffAllSpace(s: string)
    ensures Trim(s) == [] <==> AllSpace(s)
  {
    var b := TrimBounds(s);
    if b.0 < b.1 {
      assert Trim(s)[0] == s[b.0];
    }
  }

  predicate IsDigit(c: char) {
    '0' <= c <= '9'
  }

  predicate AllDigits(s: string) {
    forall k :: 0 <= k < |s| ==> IsDigit(s[k])
  }

  /** `s.replace(/\D/g, '')`: the digits of `s`, in order. */
  function KeepDigits(s: string): (r: string)
    ensures AllDigits(r)
    ensures |r| <= |s|
  {
    if s == [] then []
    else if IsDigit(s[0]) then [s[0]] + KeepDigits(s[1..])
    else KeepDigits(s[1..])
  }

  /** A single character is kept exactly when it is a digit; with
      `KeepDigitsAppend` this fixes `KeepDigits` on every string. */
  lemma KeepDigitsOfChar(c: char)
    ensures KeepDigits([c]) == if IsDigit(c) then [c] else []
  {
    assert [c][1..] == [];
  }

  /** Stripping distributes over concatenation: the digits of `a + b` are
      the digits of `a` followed by those of `b`. */
  lemma {:induction false} KeepDigitsAppend(a: string, b: string)
    ensures KeepDigits(a + b) == KeepDigits(a) + KeepDigits(b)
  {
    if a == [] {
      assert a + b == b;
    } else {
      assert (a + b)[0] == a[0];
      assert (a + b)[1..] == a[1..] + b;
      KeepDigitsAppend(a[1..], b);
    }
  }

  lemma {:induction false} KeepDigitsOfSpace(s: string)
    requires AllSpace(s)
    ensures KeepDigits(s) == []
  {
    if s != [] {
      assert !IsDigit(s[0]);
      KeepDigitsOfSpace(s[1..]);
    }
  }

  lemma {:induction false} KeepDigitsOfDigits(s: string)
    requires AllDigits(s)
    ensures KeepDigits(s) == s
  {
    if s != [] {
      KeepDigitsOfDigits(s[1..]);
    }
  }

  /** Whitespace is never a digit, so trimming before stripping non-digits
      changes nothing. */
  lemma KeepDigitsIgnoresTrim(s: string)
    ensures KeepDigits(Trim(s)) == KeepDigits(s)
  {
    var b := TrimBounds(s);
    var lead, mid, trail := s[..b.0], s[b.0..b.1], s[b.1..];
    assert s == lead + (mid + trail);
    KeepDigitsAppend(lead, mid + trail);
    KeepDigitsAppend(mid, trail);
    KeepDigitsOfSpace(lead);
    KeepDigitsOfSpace(trail);
  }

  /** The value of a digit character. */
  function DigitValue(c: char): (v: nat)
    requires IsDigit(c)
    ensures v < 10
  {
    (c as int - '0' as int) as nat
  }

  function DigitChar(d: nat): (c: char)
    requires d < 10
    ensures IsDigit(c) && DigitValue(c) == d
  {
    (d + '0' as int) as char
  }

  /** `n.toString()` for a non-negative integer. */
  function Decimal(n: nat): (s: string)
    ensures |s| >= 1 && AllDigits(s)
    ensures |s| > 1 ==> s[0] != '0'
  {
    if n < 10 then [DigitChar(n)] else Decimal(n / 10) + [DigitChar(n % 10)]
  }

  /** The number a string of decimal digits denotes. */
  function ParseDecimal(s: string): nat
    requires AllDigits(s)
  {
    if s == [] then 0 else ParseDecimal(s[..|s| - 1]) * 10 + DigitValue(s[|s| - 1])
  }

  /** Rendering then parsing gives the number back. */
  lemma {:induction false} ParseDecimalOfDecimal(n: nat)
    ensures ParseDecimal(Decimal(n)) == n
  {
    var s := Decimal(n);
    if n >= 10 {
      assert s[..|s| - 1] == Decimal(n / 10);
      ParseDecimalOfDecimal(n / 10);
    } else {
      assert s[..0] == [];
    }
  }

  /** A leading zero does not change the value. */
  lemma {:induction false} ParseDecimalLeadingZero(s: string)
    requires AllDigits(s)
    ensures ParseDecimal("0" + s) == ParseDecimal(s)
  {
    if s != [] {
      assert ("0" + s)[..|"0" + s| - 1] == "0" + s[..|s| - 1];
      ParseDecimalLeadingZero(s[..|s| - 1]);
    } else {
      assert ("0" + s)[..0] == [];
    }
  }

  function Pow10(k: nat): (p: nat)
    ensures p >= 1
  {
    if k == 0 then 1 else 10 * Pow10(k - 1)
  }

  /** A number with `k` digits renders as exactly `k` characters. */
  lemma {:induction false} DecimalLength(n: nat, k: nat)
    requires 1 <= k && Pow10(k - 1) <= n < Pow10(k)
    ensures |Decimal(n)| == k
  {
    if k > 1 {
      assert Pow10(k - 2) <= n / 10 < Pow10(k - 1);
      DecimalLength(n / 10, k - 1);
    }
  }

  /** Index of the first occurrence of `c`. */
  function IndexOf(s: string, c: char): (i: nat)
    requires c in s
    ensures i < |s| && s[i] == c && c !in s[..i]
  {
    if s[0] == c then 0 else 1 + IndexOf(s[1..], c)
  }

  /** `parts.join(sep)`. */
  function Join(parts: seq<string>, sep: char): string
    requires |parts| >= 1
  {
    if |parts| == 1 then parts[0] else parts[0] + [sep] + Join(parts[1..], sep)
  }

  /** `s.split(sep)` for a one-character separator: empty pieces are kept,
      so the result always has one more piece than `s` has separators. */
  function Split(s: string, sep: char): (parts: seq<string>)
    ensures |parts| >= 1
    ensures forall i :: 0 <= i < |parts| ==> sep !in parts[i]
    ensures Join(parts, sep) == s
    decreases |s|
  {
    if sep !in s then [s]
    else
      var i := IndexOf(s, sep);
      var rest := Split(s[i + 1..], sep);
      assert s == s[..i] + [sep] + s[i + 1..];
      [s[..i]] + rest
  }

  /** Splitting a join of separator-free pieces gives the pieces back. */
  lemma {:induction false} SplitJoin(parts: seq<string>, sep: char)
    requires |parts| >= 1
    requires forall i :: 0 <= i < |parts| ==> sep !in parts[i]
    ensures Split(Join(parts, sep), sep) == parts
  {
    if |parts| == 1 {
    } else {
      var s := Join(parts, sep);
      var head := parts[0];
      var tail := Join(parts[1..], sep);
      assert s == head + [sep] + tail;
      assert sep in s by { assert s[|head|] == sep; }
      var i := IndexOf(s, sep);
      assert s[..|head|] == head;
      assert i == |head|;
      assert s[..i] == head;
      assert s[i + 1..] == tail;
      SplitJoin(parts[1..], sep);
      assert parts == [head] + parts[1..];
    }
  }
}
